=== FILE: README.md ===
# AudioScribe core, modelled in Dafny

AudioScribe is a batch speech-to-text tool. It walks an audio folder and
sends each audio file to one of two speech-to-text backends: a streaming
engine with native timing (faster-whisper), or a generative engine with an
optional forced aligner (Qwen3-ASR). It writes one transcript text file per
input. This project models the logic between the engines and the files, and
proves properties of it:

- **Line splitting** (`LineSplit`, on top of `Text`). Untimed transcript text
  is normalised: every whitespace run becomes one space and the ends are
  stripped. It is then cut after `. ! ? 。 ！ ？` where whitespace follows.
  When that gives at most one piece, the text is cut into chunks of 16 words
  instead.
- **Per-file output and the batch loop** (`Batch`). This covers:
  - which files are picked up: the extension filter;
  - when a transcript is written with timing and when as plain text;
  - how the plain text is assembled from the segments;
  - the loop that transcribes every file and keeps going past a failing one.
- **Qwen3-ASR result handling** (`QwenRecords`, `Qwen`). This covers:
  - field lookup on dicts and objects alike;
  - turning time-stamp entries, named or positional, into segments;
  - keeping only the first record;
  - the synthesised 0–0 segment;
  - dtype resolution and the constructor's settings;
  - the fallback when the engine cannot read a file by path: decode with PyAV
    and retry once with the waveform. A failed retry raises an error naming
    both errors. No waveform raises an error naming the first. A decoding
    error propagates;
  - the `None` cases of the PyAV loader.
- **Backend selection** (`Factory`). The selector is stripped and lower-cased,
  then matched against two disjoint alias sets; anything else is a
  `ValueError`.

`Models` holds the shared records: segments, results and the two config
records with their defaults. `Wrappers` holds `Option` and `Result`.

Whatever lies outside the model is a parameter. The engine is a function from
a request to an attempt. The opened audio container is a value. The rendering
of non-string values (`str(v)`) and the parsing of numeric strings
(`float(s)`) are functions passed in. Each file's transcription in the batch
loop is a function from path to outcome.

Python's `\s` and `str.strip` use the full `str.isspace` set, written out in
`Text.IsSpace`. `str.lower` is modelled on ASCII letters only. For the
selector this changes nothing: no alias contains a letter that a non-ASCII
character lower-cases to.

A few facts about the code shape the model:
- **The timed/untimed choice.** There is no `has_timestamps` field on a
  result. The choice is recomputed for every file as "some segment has
  `end > start`" (audioscribe/batch_transcriber.py:46).
- **Blank text.** `_split_text_lines` returns `[""]` for non-empty
  all-whitespace input (audioscribe/batch_transcriber.py:70-78).
  `Batch.UntimedLinesNonEmpty` proves that this case never reaches a written
  transcript, because blank segment texts are filtered out first.
- **Timestamps.** A timed line renders its times with
  `str(timedelta(seconds=...))`, i.e. `H:MM:SS` or `H:MM:SS.ffffff`
  (audioscribe/batch_transcriber.py:51-53).
- **The failed path read.** When the path read raises and PyAV gives no
  waveform, the `RuntimeError` carries only the first error
  (audioscribe/stt/qwen3_asr_provider.py:56-59). Both errors appear only
  when the retry with the waveform raises as well.
- **The waveform's sample rate.** It is the rate of the last decoded frame
  that reports a non-zero one (audioscribe/stt/qwen3_asr_provider.py:149),
  not a property of the stream.

## Model

| member | source | states |
|---|---|---|
| Text.NormalizeIsJoinedWords | audioscribe/batch_transcriber.py:70 | `re.sub(r"\s+", " ", s).strip()` is the single-space join of the whitespace-separated words of `s`. It is free of leading, trailing, doubled or non-space whitespace, and it is empty exactly when `s` is all whitespace |
| Text.Normalize | audioscribe/batch_transcriber.py:70 | The normalised text is empty or has non-whitespace characters at both ends |
| Text.CollapseShape | audioscribe/batch_transcriber.py:70 | For text with at least one word, replacing each whitespace run by one space gives the joined words, with one space in front when `s` starts with whitespace and one behind when it ends with whitespace |
| Text.JoinWordsNormalized | audioscribe/batch_transcriber.py:70 | Joining words with single spaces gives a normalised string; for at least one word it is non-empty with non-space ends |
| Text.WordsEmptyIffBlank | audioscribe/batch_transcriber.py:70 | A string has no words exactly when it is all whitespace |
| Text.WordsAreWords | audioscribe/batch_transcriber.py:70 | Every word of `s` is non-empty and free of whitespace |
| Text.JoinSplitOn | audioscribe/batch_transcriber.py:76-81 | `" ".join(s.split(" "))` gives back `s`, for every `s` |
| Text.SplitOnJoin | audioscribe/batch_transcriber.py:76-81 | `" ".join(ws).split(" ")` gives back `ws` when no word contains a space and there is at least one word |
| Text.StripIgnoresPadding | audioscribe/factories/stt_factory.py:10 | Whitespace added on either side never changes what `strip()` returns |
| Text.LowerStrip | audioscribe/factories/stt_factory.py:10 | Lower-casing and stripping commute |
| Text.WordsOfSpaced | audioscribe/batch_transcriber.py:57 | The words of `a + " " + b` are the words of `a` followed by those of `b` |
| Text.WordsOfStrip | audioscribe/batch_transcriber.py:57 | Stripping a text keeps its words |
| LineSplit.SplitTextLines | audioscribe/batch_transcriber.py:67-68 | The empty text gives no line |
| LineSplit.Pieces | audioscribe/batch_transcriber.py:71 | The sentence split always gives at least one piece |
| LineSplit.PiecesEndWithTerminator | audioscribe/batch_transcriber.py:71 | Every sentence piece but the last is non-empty and ends with `. ! ? 。 ！ ？` |
| LineSplit.PiecesCutEverywhere | audioscribe/batch_transcriber.py:71 | Every whitespace that directly follows a sentence terminator is a cut: no piece holds a terminator followed by whitespace |
| LineSplit.PiecesOfNormalized | audioscribe/batch_transcriber.py:71 | On normalised text the pieces rejoin with single spaces to the text. Each piece is normalised, and none is empty unless the text is |
| LineSplit.SentencesOfNormalized | audioscribe/batch_transcriber.py:71-72 | For normalised non-empty text the non-empty filter keeps every piece. The pieces rejoin to the text. Each is normalised and non-empty, and none holds a terminator followed by whitespace |
| LineSplit.NonEmptyIdentity | audioscribe/batch_transcriber.py:72 | Filtering out empty pieces changes nothing when none is empty |
| LineSplit.NonEmpty | audioscribe/batch_transcriber.py:72 | No kept piece is empty, and there are never more kept pieces than pieces |
| LineSplit.NonEmptyMembership | audioscribe/batch_transcriber.py:72 | A string is kept exactly when it is one of the pieces and is not empty |
| LineSplit.EmptyHasNoSentences | audioscribe/batch_transcriber.py:71-72 | Splitting the empty normalised text leaves no non-empty piece |
| LineSplit.ChunkOfWords | audioscribe/batch_transcriber.py:76-78 | Splitting the space-join of a word list on `" "` gives back the word list. The join is normalised and non-empty |
| LineSplit.ChunkLinesRejoin | audioscribe/batch_transcriber.py:80-81 | The 16-word chunks rejoin with single spaces to the joined word list |
| LineSplit.ChunkLines | audioscribe/batch_transcriber.py:80-81 | n words give ceil(n/16) chunks |
| LineSplit.ChunkLinesShape | audioscribe/batch_transcriber.py:80-81 | Chunking n words gives ceil(n/16) normalised non-empty lines. Every line but the last splits into exactly 16 words; the last splits into 1 to 16 |
| LineSplit.SplitTextLinesSound | audioscribe/batch_transcriber.py:66-81 | The lines rejoin with single spaces to the normalised text, so no word is lost, duplicated or reordered. Every line is normalised. The result is `[""]` exactly for non-empty all-whitespace input; otherwise no line is empty |
| LineSplit.SentenceBranch | audioscribe/batch_transcriber.py:71-74 | With two or more non-empty sentence pieces, the lines are exactly those pieces, however long, every line but the last ends with a sentence terminator, and no line holds a terminator followed by whitespace |
| LineSplit.ChunkBranch | audioscribe/batch_transcriber.py:76-81 | Otherwise, text of n ≤ 16 words is the single normalised line. With n > 16 words there are ceil(n/16) lines of 16 words, the last holding 1 to 16 |
| LineSplit.SplitOnNormalized | audioscribe/batch_transcriber.py:76 | Splitting the normalised text on `" "` gives its `split()` word list, or `[""]` when the text is blank |
| LineSplit.FewWordsOneLine | audioscribe/batch_transcriber.py:76-78 | Without a usable sentence split, text of at most 16 words is the single normalised line |
| LineSplit.ManyWordsChunked | audioscribe/batch_transcriber.py:80-81 | Without a usable sentence split, n > 16 words give ceil(n/16) lines of 16 words each, the last holding 1 to 16 |
| LineSplit.LongTextIsChunked | audioscribe/batch_transcriber.py:73-81 | Without a usable sentence split, text of more than 16 words is cut into the 16-word chunks of its `split()` word list |
| Batch.AudioFiles | audioscribe/batch_transcriber.py:24-26 | A missing audio root yields no file, and never more files than entries |
| Batch.AudioFilesMembership | audioscribe/batch_transcriber.py:28-31 | A path is picked up exactly when the root exists and some entry is a regular file at that path with a supported extension |
| Batch.SelectAppend | audioscribe/batch_transcriber.py:28-32 | Selection keeps walk order: selecting from two consecutive runs of entries is selecting from each in turn |
| Batch.SelectMembership | audioscribe/batch_transcriber.py:28-31 | Under any filter, a path is selected exactly when some entry at that path passes the filter |
| Batch.AudioFilesAppend | audioscribe/batch_transcriber.py:28-32 | The audio files of two consecutive runs of walked entries are those of the first run followed by those of the second |
| Batch.FileName | audioscribe/batch_transcriber.py:91-95 | `Path.name` holds no '/' and is no longer than the path |
| Batch.FileNameEndsPath | audioscribe/batch_transcriber.py:91-95 | The path ends with its name, and a '/' comes right before the name unless the name is the whole path |
| Batch.Suffix | audioscribe/batch_transcriber.py:31 | `Path.suffix` is empty, or a '.' followed by at least one character and no further '.', ending a strictly longer name |
| Batch.Stem | audioscribe/batch_transcriber.py:44 | `Path.stem` is the whole name when there is no suffix, and never longer than the name |
| Batch.StemThenSuffix | audioscribe/batch_transcriber.py:44 | The stem followed by the suffix gives back the name |
| Batch.SuffixIsEnding | audioscribe/batch_transcriber.py:31 | `Path.suffix.lower() == ext` holds exactly when the name ends with `ext` up to ASCII case and is longer than `ext` |
| Batch.AudioFileByEnding | audioscribe/batch_transcriber.py:10 | The filter is a case-insensitive "ends with one of .mp3 .wav .m4a .flac .aac .ogg" test on a name longer than the extension, so a file named just `.mp3` is skipped |
| Batch.TimedTranscript | audioscribe/batch_transcriber.py:46-55 | If some segment has `end > start`, the transcript is one timed line per segment, in order, with that segment's times and text |
| Batch.UntimedTranscript | audioscribe/batch_transcriber.py:56-58 | Otherwise every line is plain, and the lines are the line split of the single-space join of the stripped non-blank segment texts |
| Batch.ZeroDurationHasNoTimedLine | audioscribe/batch_transcriber.py:46 | When every segment has `end <= start`, no line is timed |
| Batch.TranscriptLines | audioscribe/batch_transcriber.py:46-61 | Every written line is timed exactly when some segment has `end > start`, and then there is one line per segment |
| Batch.PlainTextIsSolid | audioscribe/batch_transcriber.py:57 | The joined plain text is empty or starts with a non-whitespace character, so it is never whitespace only |
| Batch.UntimedKeepsWords | audioscribe/batch_transcriber.py:57-58 | Untimed lines, rejoined, are exactly the words of all segment texts, segment after segment, with single spaces |
| Batch.UntimedLinesNonEmpty | audioscribe/batch_transcriber.py:57-58 | An untimed transcript never contains an empty line |
| Batch.HoldsAfter | audioscribe/batch_transcriber.py:44-48 | Writing one more file's output changes only that output name; every other name keeps the last lines written to it |
| Batch.TranscribeAll | audioscribe/batch_transcriber.py:83-97 | Every file is attempted once, in order, and yields one event. An event is a written transcript exactly when that file's transcription succeeded. A written event carries the `<stem>.txt` name and that result's transcript lines; a failed one reports the file name and error type, and the loop carries on. The final outputs hold exactly the written names, each with the last lines written to it |
| Batch.EventsForFacts | audioscribe/batch_transcriber.py:89-92 | A run's event list has the event of the i-th file, computed from that file's own outcome, at position i |
| Batch.RunEvents | audioscribe/batch_transcriber.py:89-97 | The i-th event of a run names the i-th file. It is a write of `<stem>.txt` with that file's transcript lines exactly when the file's transcription succeeded, and otherwise a report naming the file and the error type |
| Batch.ReplayedHolds | audioscribe/batch_transcriber.py:44-48 | Replaying the writes of a run leaves in the output directory exactly the names some event wrote, and each name holds the lines of the last event that wrote it |
| Batch.EventForFacts | audioscribe/batch_transcriber.py:89-97 | One file's outcome becomes a written event with its output name and lines, or a failure report naming the file and the error type |
| Batch.FailureReport | audioscribe/batch_transcriber.py:94-97 | The failure report contains the file name, the exception type name and the exception message |
| QwenRecords.PickField | audioscribe/stt/qwen3_asr_provider.py:125-129 | Lookup on anything that is neither a dict nor an object gives `None` |
| QwenRecords.Lookup | audioscribe/stt/qwen3_asr_provider.py:127-129 | A value found under a key was stored under that key |
| QwenRecords.LookupFinds | audioscribe/stt/qwen3_asr_provider.py:127-129 | With distinct keys, a stored key/value pair is what the lookup returns |
| QwenRecords.LookupMissing | audioscribe/stt/qwen3_asr_provider.py:127-129 | A key that is absent reads as `None` |
| QwenRecords.DictActsLikeObject | audioscribe/stt/qwen3_asr_provider.py:126-129 | A dict and an object exposing the same names read identically |
| QwenRecords.Iterate | audioscribe/stt/qwen3_asr_provider.py:110 | Iterating fails with `TypeError` exactly for `None`, booleans, numbers and non-iterable objects; a list iterates over its items |
| QwenRecords.ToFloat | audioscribe/stt/qwen3_asr_provider.py:122 | `float()` keeps floats, converts ints exactly, and raises `TypeError` on lists, dicts and objects |
| QwenRecords.ToText | audioscribe/stt/qwen3_asr_provider.py:122 | `str()` of a string is the string itself |
| QwenRecords.EntryFields | audioscribe/stt/qwen3_asr_provider.py:111-118 | A list or tuple of at least three items supplies start, end and text from positions 0, 1, 2; anything else that is not a list supplies the named fields |
| QwenRecords.EntrySegments | audioscribe/stt/qwen3_asr_provider.py:109-123 | Converting entries never gives more segments than entries |
| QwenRecords.EntrySegmentsAppend | audioscribe/stt/qwen3_asr_provider.py:109-123 | Converting two runs of entries is converting each and concatenating, so order is kept, and the first failure aborts |
| QwenRecords.SingleEntry | audioscribe/stt/qwen3_asr_provider.py:110-123 | A single entry gives its own segment, nothing when skipped, or its error |
| QwenRecords.EntryConversion | audioscribe/stt/qwen3_asr_provider.py:111-122 | An entry is skipped exactly when a field is `None`. It becomes a segment exactly when the fields are present and both times convert, and a string text is kept verbatim |
| QwenRecords.EntrySegment | audioscribe/stt/qwen3_asr_provider.py:111-122 | An entry is skipped exactly when its text, start or end is `None`; a converted segment's start and end are `float()` of those fields |
| QwenRecords.PositionalEntry | audioscribe/stt/qwen3_asr_provider.py:115-118 | `[start, end, text, ...]` becomes the segment (start, end, text) |
| QwenRecords.NamedEntry | audioscribe/stt/qwen3_asr_provider.py:111-113 | A dict with `start_time`, `end_time` and `text` becomes that segment |
| QwenRecords.TimestampsFallback | audioscribe/stt/qwen3_asr_provider.py:102-109 | When `time_stamps` is missing or falsy and `timestamps` is truthy, the segments are those of the `timestamps` entries, and an entry list that cannot be iterated is the error |
| QwenRecords.ExtractSegments | audioscribe/stt/qwen3_asr_provider.py:103-107 | When both `time_stamps` and `timestamps` are missing or falsy there is no segment, and a record that is neither dict nor object has none |
| QwenRecords.StampsPreferred | audioscribe/stt/qwen3_asr_provider.py:103-105 | A truthy `time_stamps` is used and `timestamps` is never consulted |
| QwenRecords.StringItemsAreSkipped | audioscribe/stt/qwen3_asr_provider.py:111-121 | Bare-string entries carry no field and are all skipped |
| QwenRecords.StringOrDictStampsGiveNothing | audioscribe/stt/qwen3_asr_provider.py:110-121 | A non-empty string or dict under `time_stamps` iterates but gives no segment |
| Qwen.ResolveDtype | audioscribe/stt/qwen3_asr_provider.py:93-99 | `"float16"` gives float16 and `"float32"` gives float32; every other name gives bfloat16 |
| Qwen.Configure | audioscribe/stt/qwen3_asr_provider.py:23-37 | The aligner is loaded exactly when its name is non-empty, with the engine's dtype and device. Language and the time-stamp flag are kept for every call |
| Qwen.DefaultProvider | audioscribe/config.py:16-24 | The default configuration loads in bfloat16 on `cuda:0` with the 0.6B forced aligner, requests time stamps and leaves the language to detection |
| Qwen.LoadAudio | audioscribe/stt/qwen3_asr_provider.py:131-157 | Loading raises exactly when decoding an audio stream raises. An unopenable file gives `None`, and so does an opened one without an audio stream. A waveform needs an audio stream that decoded at least one frame |
| Qwen.LastRateIsLastReported | audioscribe/stt/qwen3_asr_provider.py:144-149 | The running `frame.sample_rate or sample_rate` ends at the last frame's non-zero rate, or stays put when no frame reports one |
| Qwen.LoadAudioWaveform | audioscribe/stt/qwen3_asr_provider.py:144-157 | A decoded stream gives a waveform exactly when some frame reports a sample rate, and that waveform carries the last reported rate |
| Qwen.Attempts | audioscribe/stt/qwen3_asr_provider.py:52-75 | The path call always comes first; if it succeeds nothing else happens. Exactly one retry, with the decoded waveform, is made when the path call raised and decoding gave a waveform. Every call carries the configured language and time-stamp flag. The outcome is a success exactly when the last call returned, and then it is that call's records, so a successful retry is used |
| Qwen.ReadFailure | audioscribe/stt/qwen3_asr_provider.py:54-59 | A failed path read with no decodable audio raises `RuntimeError` naming the file and the first error's type and message |
| Qwen.BothFailures | audioscribe/stt/qwen3_asr_provider.py:68-75 | A failed retry raises `RuntimeError` carrying both errors' types and messages |
| Qwen.DecodeErrorPropagates | audioscribe/stt/qwen3_asr_provider.py:54-55 | An error while decoding inside the fallback escapes unchanged |
| Qwen.Language | audioscribe/stt/qwen3_asr_provider.py:88 | The language is absent exactly when the field is `None`; a string is kept as it is |
| Qwen.PostProcess | audioscribe/stt/qwen3_asr_provider.py:77-91 | No records gives an empty result with no language. The probability is never reported, and it fails exactly when extracting the first record's segments fails |
| Qwen.FirstRecordOnly | audioscribe/stt/qwen3_asr_provider.py:80 | Records after the first never influence the result |
| Qwen.SegmentsWinOverText | audioscribe/stt/qwen3_asr_provider.py:84-91 | With extracted segments, the result's segments are exactly those, and its language is the record's `language` field |
| Qwen.TextOnlyIsUntimed | audioscribe/stt/qwen3_asr_provider.py:84-91 | No segments but a truthy text gives the single segment (0, 0, text) and keeps the record's language. The batch writes it untimed, as the line split of the stripped text |
| Qwen.NothingUsable | audioscribe/stt/qwen3_asr_provider.py:84-91 | Neither segments nor text gives no segment, with the record's language kept |
| Qwen.Transcribe | audioscribe/stt/qwen3_asr_provider.py:44-91 | A failed call chain is the provider's error. A successful one gives the conversion of the records it returned. A result never reports a language probability |
| Qwen.PathSuccessIgnoresContainer | audioscribe/stt/qwen3_asr_provider.py:52-53 | When the path read succeeds, the result is the post-processing of its records whatever the container holds |
| Factory.Create | audioscribe/factories/stt_factory.py:9-20 | The faster-whisper backend is chosen exactly for a normalised name in {faster-whisper, whisper}, and the Qwen backend exactly for one in {qwen3-asr, qwen, qwen-asr}, each with its default configuration; everything else is a `ValueError` |
| Factory.AliasesDisjoint | audioscribe/factories/stt_factory.py:12-16 | The two alias sets share no name |
| Factory.RejectionMessage | audioscribe/factories/stt_factory.py:18-20 | A name in neither alias set is rejected with a message quoting it verbatim and listing `faster-whisper, qwen3-asr` |
| Factory.MessageQuotes | audioscribe/factories/stt_factory.py:19 | The rejection message contains the name as given and both choices |
| Factory.PaddingAndCaseIrrelevant | audioscribe/factories/stt_factory.py:10 | Names that differ only in surrounding whitespace and ASCII case are accepted or rejected alike, and give the same backend |
| Factory.PaddedMixedCaseQwen | audioscribe/factories/stt_factory.py:10-16 | `" Qwen "` selects the Qwen backend |
| Factory.ModelSizeIsNotABackend | audioscribe/factories/stt_factory.py:12-20 | `"whisper-large"` is rejected |

## Left out

- Model inference is left out. The engines are opaque: each engine call is a function from request to attempt (`Qwen.Attempts`), and each file's transcription in the batch is a function from path to outcome (`Batch.TranscribeAll`).
- Audio numerics are left out: PyAV frame decoding, the channel-mean downmix and float32 concatenation. A frame is its sample count and sample rate; only which outcome the loader gives is modelled.
- Filesystem and console I/O are left out: `rglob`, `mkdir`, the file writes and every progress `print`. The walk yields a given list of entries in a given order. Transcripts are returned as line lists, and the output directory is a map from output name to lines.
- Timestamp rendering is left out. A timed line is a `Timed(start, end, text)` value, not the text `[H:MM:SS[.ffffff] -> ...] text` that `str(timedelta(seconds=...))` produces.
- Batch.TranscribeAll: a transcription result whose rendering or writing raises is not modelled; only the backend call can fail here. Such failures would be a `timedelta` overflow or a write error.
- Batch.TranscribeAll, Qwen.Attempts: every failure is modelled as an `Exception` subclass. In the source, a `BaseException` that is not an `Exception` (`KeyboardInterrupt`, `SystemExit`) escapes `except Exception`. It ends the batch run without a report or any later file, and it skips the PyAV fallback. The model treats such a failure like any other, so it would record a report and go on, or decode and retry.
- Whitespace and case: `\s` and `str.strip` use a fixed character set, and `str.lower` is modelled on ASCII letters only.
- Qwen.Language: a non-string language value is stored as its `str()` rendering, whereas Python keeps the raw object. The batch only ever prints it.
- QwenRecords.ToFloat: the reading of numeric strings is a parameter. Float special values (NaN, infinities) and objects defining `__float__` are not modelled.
- QwenRecords.ToFloat: ints are converted exactly. Python rounds an int beyond 2^53 to the nearest double and raises `OverflowError` above the double range; neither is modelled.
- QwenRecords.ToFloat: the `ValueError` message quotes the string with plain single quotes, where Python uses `repr(s)`; they differ for strings holding quotes, backslashes or unprintable characters.
- QwenRecords.ToFloat: for an object, the `TypeError` message names the type `object` rather than the object's real class.
- QwenRecords.Iterate: for an object, the `TypeError` message names the type `object` rather than the object's real class, and that message reaches the batch's failure report.
- QwenRecords.Iterate: the order of a dict's keys is its insertion order. Custom iterable objects are modelled as sized containers, so a plain object is truthy and not iterable.
- The `'<empty message>'` placeholder in the failure report is left out. An exception object is always truthy, so it never appears.
- Construction failures are left out: missing optional dependencies (`ImportError` turned into `RuntimeError`) and model loading.
- audioscribe/stt/faster_whisper_provider.py is not part of this model. It copies engine segments verbatim.
- app.py is not part of this model. It is an earlier, superseded version of the batch logic.
- audioscribe/interfaces/stt.py is not part of this model. It is an abstract base class only.
- Paths are `/`-separated without a trailing separator; Windows separators are not modelled.

=== FILE: Batch.dfy ===
/** `BatchTranscriber`: which files a batch picks up, how one transcription
    result becomes transcript lines, and the loop that transcribes every file
    while isolating per-file failures. */
module Batch {
  import opened Wrappers
  import opened Text
  import opened LineSplit
  import opened Models

  /** Audio file extensions, compared after lower-casing. */
  const SupportedExtensions: set<string> := {".mp3", ".wav", ".m4a", ".flac", ".aac", ".ogg"}

  // ---------------------------------------------------------------------------
  // Discovery

  /** One entry met while walking the audio root: its path and whether it is a
      regular file. Paths are '/'-separated, without a trailing '/'. */
  datatype Entry = Entry(path: string, isFile: bool)

  /** `str.rfind(c)`: the last index holding `c`, or -1. */
  function RFind(s: string, c: char): (i: int)
    ensures -1 <= i < |s|
    ensures i >= 0 ==> s[i] == c && forall j | i < j < |s| :: s[j] != c
    ensures i == -1 ==> c !in s
  {
    if s == [] then -1
    else if s[|s| - 1] == c then |s| - 1
    else RFind(s[..|s| - 1], c)
  }

  /** `Path.name`: the text after the last '/'. */
  function FileName(path: string): (name: string)
    ensures '/' !in name
    ensures |name| <= |path|
  {
    var i := RFind(path, '/');
    path[i + 1..]
  }

  /** `Path.suffix`: from the last '.', unless that dot starts or ends the name. */
  function Suffix(name: string): (ext: string)
    ensures ext == "" || (2 <= |ext| < |name| && ext[0] == '.' && '.' !in ext[1..] && name[|name| - |ext|..] == ext)
  {
    var i := RFind(name, '.');
    if 0 < i < |name| - 1 then name[i..] else ""
  }

  /** `Path.stem`: the name without its suffix. */
  function Stem(name: string): (stem: string)
    ensures |stem| <= |name|
    ensures Suffix(name) == "" ==> stem == name
  {
    var i := RFind(name, '.');
    if 0 < i < |name| - 1 then name[..i] else name
  }

  /** The file name is the part of the path after its last '/'. */
  lemma FileNameEndsPath(path: string)
    ensures var name := FileName(path);
      && path == path[..|path| - |name|] + name
      && (|name| < |path| ==> path[|path| - |name| - 1] == '/')
  {
  }

  /** The stem followed by the suffix gives back the whole name. */
  lemma StemThenSuffix(name: string)
    ensures Stem(name) + Suffix(name) == name
  {
  }

  predicate IsAudioFile(path: string) {
    Lower(Suffix(FileName(path))) in SupportedExtensions
  }

  /** An entry the walk keeps: a regular file with a supported extension. */
  predicate Picked(e: Entry) {
    e.isFile && IsAudioFile(e.path)
  }

  /** The files a batch run transcribes, in walk order: nothing when the root
      does not exist, otherwise the regular files with a supported extension. */
  function AudioFiles(rootExists: bool, entries: seq<Entry>): (files: seq<string>)
    ensures !rootExists ==> files == []
    ensures |files| <= |entries|
  {
    if !rootExists then [] else Select(entries, Picked)
  }

  /** The paths of the entries `keep` accepts, in order. */
  function Select(entries: seq<Entry>, keep: Entry -> bool): (files: seq<string>)
    ensures |files| <= |entries|
  {
    if entries == [] then []
    else (if keep(entries[0]) then [entries[0].path] else []) + Select(entries[1..], keep)
  }

  lemma {:induction false} SelectMembership(entries: seq<Entry>, keep: Entry -> bool, p: string)
    ensures p in Select(entries, keep) <==> exists i | 0 <= i < |entries| :: entries[i].path == p && keep(entries[i])
    decreases |entries|
  {
    if entries != [] {
      SelectMembership(entries[1..], keep, p);
      if p in Select(entries[1..], keep) {
        var i :| 0 <= i < |entries[1..]| && entries[1..][i].path == p && keep(entries[1..][i]);
        assert entries[i + 1] == entries[1..][i];
      }
      if exists i | 0 <= i < |entries| :: entries[i].path == p && keep(entries[i]) {
        var i :| 0 <= i < |entries| && entries[i].path == p && keep(entries[i]);
        if i > 0 {
          assert entries[1..][i - 1] == entries[i];
        }
      }
    }
  }

  /** A path is picked up exactly when the root exists and the path is a
      regular file with a supported extension. */
  lemma AudioFilesMembership(rootExists: bool, entries: seq<Entry>, p: string)
    ensures p in AudioFiles(rootExists, entries) <==>
      rootExists && exists i | 0 <= i < |entries| :: entries[i].path == p && entries[i].isFile && IsAudioFile(p)
  {
    SelectMembership(entries, Picked, p);
  }

  /** The selection keeps walk order: selecting from two consecutive runs of
      entries is selecting from each in turn. */
  lemma {:induction false} SelectAppend(a: seq<Entry>, b: seq<Entry>, keep: Entry -> bool)
    ensures Select(a + b, keep) == Select(a, keep) + Select(b, keep)
    decreases |a|
  {
    if a == [] {
      assert a + b == b;
    } else {
      var x := if keep(a[0]) then [a[0].path] else [];
      assert (a + b)[0] == a[0];
      assert (a + b)[1..] == a[1..] + b;
      SelectAppend(a[1..], b, keep);
      assert x + (Select(a[1..], keep) + Select(b, keep)) == (x + Select(a[1..], keep)) + Select(b, keep);
    }
  }

  /** Walking two consecutive runs of entries picks up the files of the first
      run, then those of the second. */
  lemma AudioFilesAppend(a: seq<Entry>, b: seq<Entry>)
    ensures AudioFiles(true, a + b) == AudioFiles(true, a) + AudioFiles(true, b)
  {
    SelectAppend(a, b, Picked);
  }

  lemma RFindIsLast(s: string, c: char, k: nat)
    requires k < |s| && s[k] == c
    requires forall j | k < j < |s| :: s[j] != c
    ensures RFind(s, c) == k
  {
  }

  /** `Path.suffix.lower() == ext` holds exactly when the file name ends with
      `ext` up to ASCII case and has something before it, for every extension
      that is a dot followed by at least one non-dot character. */
  lemma SuffixIsEnding(name: string, ext: string)
    requires |ext| >= 2 && ext[0] == '.' && '.' !in ext[1..]
    ensures Lower(Suffix(name)) == ext <==> |name| > |ext| && Lower(name[|name| - |ext|..]) == ext
  {
    if |name| > |ext| && Lower(name[|name| - |ext|..]) == ext {
      var k := |name| - |ext|;
      var tail := name[k..];
      assert LowerChar(tail[0]) == ext[0];
      LowerCharIsDot(tail[0]);
      forall j | k < j < |name|
        ensures name[j] != '.'
      {
        assert LowerChar(tail[j - k]) == ext[j - k];
        assert ext[j - k] == ext[1..][j - k - 1];
        LowerCharIsDot(tail[j - k]);
      }
      RFindIsLast(name, '.', k);
    }
    if Lower(Suffix(name)) == ext {
      var i := RFind(name, '.');
      assert 0 < i < |name| - 1;
    }
  }

  /** The extension filter is a case-insensitive "ends with one of the six
      extensions" test on the file name, where the name must be longer than
      the extension: a file called just `.mp3` is not picked up. */
  lemma AudioFileByEnding(path: string)
    ensures IsAudioFile(path) <==>
      exists ext | ext in SupportedExtensions ::
        |FileName(path)| > |ext| && Lower(FileName(path)[|FileName(path)| - |ext|..]) == ext
  {
    var name := FileName(path);
    forall ext | ext in SupportedExtensions
      ensures Lower(Suffix(name)) == ext <==> |name| > |ext| && Lower(name[|name| - |ext|..]) == ext
    {
      assert |ext| >= 2 && ext[0] == '.' && '.' !in ext[1..];
      SuffixIsEnding(name, ext);
    }
  }

  // ---------------------------------------------------------------------------
  // One file: result to transcript lines

  /** A transcript line. A timed line is written `[<start> -> <end>] <text>`
      with both times rendered by `str(timedelta(seconds=...))`; a plain line is
      its text. */
  datatype Line = Timed(start: real, end: real, text: string) | Plain(text: string)

  /** Some segment has positive duration. */
  predicate HasRealTimestamps(segments: seq<Segment>) {
    exists i | 0 <= i < |segments| :: segments[i].end > segments[i].start
  }

  /** The stripped texts of the segments whose stripped text is not empty. */
  function StrippedTexts(segments: seq<Segment>): (texts: seq<string>)
    ensures |texts| <= |segments|
  {
    if segments == [] then []
    else
      var t := Strip(segments[0].text);
      (if t != "" then [t] else []) + StrippedTexts(segments[1..])
  }

  /** The stripped texts of the segments that are not blank, joined with
      single spaces. */
  function PlainText(segments: seq<Segment>): string {
    Join(StrippedTexts(segments))
  }

  function TimedLines(segments: seq<Segment>): (lines: seq<Line>)
    ensures |lines| == |segments|
  {
    seq(|segments|, i requires 0 <= i < |segments| => Timed(segments[i].start, segments[i].end, segments[i].text))
  }

  function PlainLines(texts: seq<string>): (lines: seq<Line>)
    ensures |lines| == |texts|
  {
    seq(|texts|, i requires 0 <= i < |texts| => Plain(texts[i]))
  }

  /** The text of each line. */
  function Texts(lines: seq<Line>): (texts: seq<string>)
    ensures |texts| == |lines|
  {
    seq(|lines|, i requires 0 <= i < |lines| => lines[i].text)
  }

  /** The lines `transcribe_file` writes for one result. */
  function TranscriptLines(result: TranscriptionResult): (lines: seq<Line>)
    ensures forall i | 0 <= i < |lines| :: lines[i].Timed? == HasRealTimestamps(result.segments)
    ensures HasRealTimestamps(result.segments) ==> |lines| == |result.segments|
  {
    var segments := result.segments;
    if HasRealTimestamps(segments) then TimedLines(segments)
    else PlainLines(SplitTextLines(PlainText(segments)))
  }

  /** With real timing, the transcript is one timed line per segment, in
      segment order, carrying the segment's own times and unstripped text. */
  lemma TimedTranscript(result: TranscriptionResult)
    requires HasRealTimestamps(result.segments)
    ensures var lines := TranscriptLines(result);
      && |lines| == |result.segments|
      && forall i | 0 <= i < |lines| ::
           && lines[i].Timed?
           && lines[i].start == result.segments[i].start
           && lines[i].end == result.segments[i].end
           && lines[i].text == result.segments[i].text
  {
  }

  /** Without real timing every line is plain, and the lines are the splitter's
      output for the single-space join of the stripped non-blank texts. */
  lemma UntimedTranscript(result: TranscriptionResult)
    requires !HasRealTimestamps(result.segments)
    ensures var lines := TranscriptLines(result);
      && (forall i | 0 <= i < |lines| :: lines[i].Plain?)
      && Texts(lines) == SplitTextLines(PlainText(result.segments))
  {
    var texts := SplitTextLines(PlainText(result.segments));
    assert Texts(PlainLines(texts)) == texts;
  }

  /** When no segment has positive duration (every `end <= start`, the
      zero-duration sentinel included), no line is a bracketed timed line. */
  lemma ZeroDurationHasNoTimedLine(result: TranscriptionResult)
    requires forall i | 0 <= i < |result.segments| :: result.segments[i].end <= result.segments[i].start
    ensures forall i | 0 <= i < |TranscriptLines(result)| :: !TranscriptLines(result)[i].Timed?
  {
  }

  // ---------------------------------------------------------------------------
  // Words across segments

  /** The words of all segment texts, segment after segment. */
  function SegmentWords(segments: seq<Segment>): seq<string> {
    if segments == [] then [] else Words(segments[0].text) + SegmentWords(segments[1..])
  }

  lemma {:induction false} WordsOfStrippedTexts(segments: seq<Segment>)
    ensures Words(PlainText(segments)) == SegmentWords(segments)
    decreases |segments|
  {
    if segments != [] {
      var t := Strip(segments[0].text);
      var rest := StrippedTexts(segments[1..]);
      WordsOfStrippedTexts(segments[1..]);
      WordsOfStrip(segments[0].text);
      if t == "" {
        WordsEmptyIffBlank(t);
        assert StrippedTexts(segments) == rest;
      } else {
        assert StrippedTexts(segments) == [t] + rest;
        if rest == [] {
          assert Join([t]) == t;
          assert Words(PlainText(segments[1..])) == [];
        } else {
          JoinCons(t, rest);
          WordsOfSpaced(t, Join(rest));
        }
      }
    }
  }

  /** Untimed output loses no word: re-joining its lines with single spaces
      gives the words of every segment text, segment after segment and in
      order, separated by single spaces. */
  lemma UntimedKeepsWords(result: TranscriptionResult)
    requires !HasRealTimestamps(result.segments)
    ensures Join(Texts(TranscriptLines(result))) == Join(SegmentWords(result.segments))
  {
    var plain := PlainText(result.segments);
    UntimedTranscript(result);
    SplitTextLinesSound(plain);
    NormalizeIsJoinedWords(plain);
    WordsOfStrippedTexts(result.segments);
  }

  /** The text the batch hands to the splitter is empty or starts with a
      non-whitespace character, so it is never whitespace only. */
  lemma {:induction false} PlainTextIsSolid(segments: seq<Segment>)
    ensures PlainText(segments) == "" || !IsSpace(PlainText(segments)[0])
    ensures PlainText(segments) == "" || !Blank(PlainText(segments))
    decreases |segments|
  {
    if segments != [] {
      var t := Strip(segments[0].text);
      if t == "" {
        assert StrippedTexts(segments) == StrippedTexts(segments[1..]);
        PlainTextIsSolid(segments[1..]);
      } else {
        var texts := StrippedTexts(segments);
        assert texts[0] == t;
        StripStartsSolid(segments[0].text);
        JoinFirst(texts);
      }
    }
  }

  /** An untimed transcript never holds an empty line: the splitter's single
      empty line for whitespace-only input cannot arise here, so blank
      segment text gives no line at all. */
  lemma UntimedLinesNonEmpty(result: TranscriptionResult)
    requires !HasRealTimestamps(result.segments)
    ensures forall i | 0 <= i < |TranscriptLines(result)| :: TranscriptLines(result)[i].text != ""
  {
    var plain := PlainText(result.segments);
    PlainTextIsSolid(result.segments);
    SplitTextLinesSound(plain);
    UntimedTranscript(result);
    var lines := TranscriptLines(result);
    forall i | 0 <= i < |lines|
      ensures lines[i].text != ""
    {
      assert lines[i].text == Texts(lines)[i];
    }
  }

  // ---------------------------------------------------------------------------
  // The batch loop

  /** What the batch records for one file: the transcript written to
      `output`, or the failure it reported. */
  datatype Event =
    | Written(file: string, output: string, lines: seq<Line>)
    | Failed(file: string, report: string)

  /** `<stem>.txt`, the flat output file of one audio file. */
  function OutputName(path: string): string {
    Stem(FileName(path)) + ".txt"
  }

  /** The console report of a failed file: its name, the error type and message. */
  function FailureReport(path: string, failure: Failure): (report: string)
    ensures Contains(report, FileName(path))
    ensures Contains(report, failure.kind)
    ensures Contains(report, failure.message)
  {
    ReportParts(FileName(path), failure.kind, failure.message);
    "處理 " + (FileName(path) + (" 時發生錯誤: " + (failure.kind + (": " + failure.message))))
  }

  lemma ReportParts(name: string, kind: string, message: string)
    ensures var report := "處理 " + (name + (" 時發生錯誤: " + (kind + (": " + message))));
      && Contains(report, name) && Contains(report, kind) && Contains(report, message)
  {
    var tail := ": " + message;
    var afterName := " 時發生錯誤: " + (kind + tail);
    ContainsAt("處理 ", name, afterName);
    ContainsAt(" 時發生錯誤: ", kind, tail);
    ContainsAfter(name, afterName, kind);
    ContainsAfter("處理 ", name + afterName, kind);
    ContainsAt(": ", message, "");
    assert message + "" == message;
    ContainsAfter(kind, tail, message);
    ContainsAfter(" 時發生錯誤: ", kind + tail, message);
    ContainsAfter(name, afterName, message);
    ContainsAfter("處理 ", name + afterName, message);
  }

  /** No later file writes the same output file as file `i`. */
  predicate LastWriter(events: seq<Event>, i: int)
    requires 0 <= i < |events| && events[i].Written?
  {
    forall j | i < j < |events| :: !(events[j].Written? && events[j].output == events[i].output)
  }

  /** `outputs` is what the output directory holds after `events`: one entry
      per output name some file wrote, holding the last lines written there. */
  ghost predicate Holds(events: seq<Event>, outputs: map<string, seq<Line>>) {
    && (forall name :: name in outputs <==>
          exists i | 0 <= i < |events| :: events[i].Written? && events[i].output == name)
    && (forall i | 0 <= i < |events| :: events[i].Written? && LastWriter(events, i) ==>
          events[i].output in outputs && outputs[events[i].output] == events[i].lines)
  }

  /** Writing one more file overwrites at most its own output name. */
  lemma HoldsAfter(events: seq<Event>, outputs: map<string, seq<Line>>, e: Event)
    requires Holds(events, outputs)
    ensures Holds(events + [e], if e.Written? then outputs[e.output := e.lines] else outputs)
  {
    var after := events + [e];
    var out := if e.Written? then outputs[e.output := e.lines] else outputs;
    assert forall i | 0 <= i < |events| :: after[i] == events[i];
    forall name
      ensures name in out <==> exists i | 0 <= i < |after| :: after[i].Written? && after[i].output == name
    {
      if name in outputs {
        var i :| 0 <= i < |events| && events[i].Written? && events[i].output == name;
        assert after[i].Written? && after[i].output == name;
      }
      if e.Written? && name == e.output {
        assert after[|events|].Written? && after[|events|].output == name;
      }
    }
    forall i | 0 <= i < |after| && after[i].Written? && LastWriter(after, i)
      ensures after[i].output in out && out[after[i].output] == after[i].lines
    {
      if i < |events| {
        assert LastWriter(events, i) by {
          forall j | i < j < |events|
            ensures !(events[j].Written? && events[j].output == events[i].output)
          {
            assert after[j] == events[j];
          }
        }
        if e.Written? {
          assert !(after[|events|].Written? && after[|events|].output == after[i].output);
        }
      }
    }
  }

  /** The events of a run over `files`, file after file. */
  function EventsFor(files: seq<string>, transcribe: string -> Result<TranscriptionResult, Failure>): (events: seq<Event>)
    ensures |events| == |files|
  {
    if files == [] then []
    else
      var n := |files| - 1;
      EventsFor(files[..n], transcribe) + [EventFor(files[n], transcribe(files[n]))]
  }

  /** The output directory after `events`: each written transcript stored
      under its output name, replacing what was there. */
  function Replayed(events: seq<Event>): map<string, seq<Line>> {
    if events == [] then map[]
    else
      var n := |events| - 1;
      var e := events[n];
      if e.Written? then Replayed(events[..n])[e.output := e.lines] else Replayed(events[..n])
  }

  lemma {:induction false} EventsForFacts(files: seq<string>, transcribe: string -> Result<TranscriptionResult, Failure>)
    ensures forall i | 0 <= i < |files| :: EventsFor(files, transcribe)[i] == EventFor(files[i], transcribe(files[i]))
    decreases |files|
  {
    if files != [] {
      var n := |files| - 1;
      var init := files[..n];
      var before := EventsFor(init, transcribe);
      var last := EventFor(files[n], transcribe(files[n]));
      assert EventsFor(files, transcribe) == before + [last];
      EventsForFacts(init, transcribe);
      forall i | 0 <= i < |files|
        ensures EventsFor(files, transcribe)[i] == EventFor(files[i], transcribe(files[i]))
      {
        if i < n {
          assert (before + [last])[i] == before[i];
          assert init[i] == files[i];
        }
      }
    }
  }

  /** The directory content computed by replaying the writes is the one
      `Holds` describes. */
  lemma {:induction false} ReplayedHolds(events: seq<Event>)
    ensures Holds(events, Replayed(events))
    decreases |events|
  {
    if events != [] {
      var n := |events| - 1;
      ReplayedHolds(events[..n]);
      HoldsAfter(events[..n], Replayed(events[..n]), events[n]);
      assert events[..n] + [events[n]] == events;
    }
  }

  /** `transcribe_all`: every file is attempted once, in order; a failing file
      writes nothing and is reported, and the batch carries on. `transcribe`
      stands for the backend call on each file. `outputs` is the final content
      of the output directory: a later file with the same stem overwrites an
      earlier one. */
  method TranscribeAll(files: seq<string>, transcribe: string -> Result<TranscriptionResult, Failure>)
    returns (events: seq<Event>, outputs: map<string, seq<Line>>)
    ensures |events| == |files|
    ensures forall i | 0 <= i < |files| :: events[i].file == files[i]
    ensures forall i | 0 <= i < |files| :: events[i].Written? <==> transcribe(files[i]).Ok?
    ensures forall i | 0 <= i < |files| :: events[i].Written? ==>
      events[i].output == OutputName(files[i]) && events[i].lines == TranscriptLines(transcribe(files[i]).value)
    ensures forall i | 0 <= i < |files| :: events[i].Failed? ==>
      Contains(events[i].report, FileName(files[i])) && Contains(events[i].report, transcribe(files[i]).error.kind)
    ensures forall name :: name in outputs <==>
      exists i | 0 <= i < |events| :: events[i].Written? && events[i].output == name
    ensures forall i | 0 <= i < |events| :: events[i].Written? && LastWriter(events, i) ==>
      events[i].output in outputs && outputs[events[i].output] == events[i].lines
  {
    events := [];
    outputs := map[];
    var k := 0;
    while k < |files|
      invariant 0 <= k <= |files|
      invariant events == EventsFor(files[..k], transcribe)
      invariant outputs == Replayed(events)
    {
      var event := EventFor(files[k], transcribe(files[k]));
      RunStep(files, transcribe, k);
      ReplayStep(events, event);
      if event.Written? {
        outputs := outputs[event.output := event.lines];
      }
      events := events + [event];
      k := k + 1;
    }
    assert files[..k] == files;
    RunEvents(files, transcribe);
    ReplayedHolds(events);
  }

  /** One more file adds its own event to the run. */
  lemma RunStep(files: seq<string>, transcribe: string -> Result<TranscriptionResult, Failure>, k: int)
    requires 0 <= k < |files|
    ensures EventsFor(files[..k + 1], transcribe) ==
      EventsFor(files[..k], transcribe) + [EventFor(files[k], transcribe(files[k]))]
  {
    assert files[..k + 1][..k] == files[..k];
  }

  /** One more event writes at most its own output name. */
  lemma ReplayStep(events: seq<Event>, e: Event)
    ensures Replayed(events + [e]) ==
      if e.Written? then Replayed(events)[e.output := e.lines] else Replayed(events)
  {
    assert (events + [e])[..|events|] == events;
  }

  /** Each event of a run is the one its own file's outcome gives. */
  lemma RunEvents(files: seq<string>, transcribe: string -> Result<TranscriptionResult, Failure>)
    ensures var events := EventsFor(files, transcribe);
      forall i | 0 <= i < |files| ::
        && events[i].file == files[i]
        && (events[i].Written? <==> transcribe(files[i]).Ok?)
        && (events[i].Written? ==>
              events[i].output == OutputName(files[i]) && events[i].lines == TranscriptLines(transcribe(files[i]).value))
        && (events[i].Failed? ==>
              Contains(events[i].report, FileName(files[i])) && Contains(events[i].report, transcribe(files[i]).error.kind))
  {
    EventsForFacts(files, transcribe);
    forall i | 0 <= i < |files| {
      EventForFacts(files[i], transcribe(files[i]));
    }
  }

  /** The event `transcribe_file` leaves for one file and its outcome. */
  function EventFor(file: string, outcome: Result<TranscriptionResult, Failure>): Event {
    match outcome
    case Ok(result) => Written(file, OutputName(file), TranscriptLines(result))
    case Err(failure) => Failed(file, FailureReport(file, failure))
  }

  lemma EventForFacts(file: string, outcome: Result<TranscriptionResult, Failure>)
    ensures var e := EventFor(file, outcome);
      && e.file == file
      && (e.Written? <==> outcome.Ok?)
      && (e.Written? ==> e.output == OutputName(file) && e.lines == TranscriptLines(outcome.value))
      && (e.Failed? ==> Contains(e.report, FileName(file)) && Contains(e.report, outcome.error.kind))
  {
  }
}

=== FILE: Factory.dfy ===
/** `STTFactory.create`: choosing a backend from a user-supplied name. */
module Factory {
  import opened Wrappers
  import opened Text
  import opened Models
  import Qwen

  /** Names that select the streaming engine, after stripping and lower-casing. */
  const WhisperNames: set<string> := {"faster-whisper", "whisper"}

  /** Names that select the generative engine, after stripping and lower-casing. */
  const QwenNames: set<string> := {"qwen3-asr", "qwen", "qwen-asr"}

  /** A constructed backend with its default configuration. */
  datatype Backend = FasterWhisper(config: FasterWhisperConfig) | Qwen3Asr(provider: Qwen.Provider)

  function UnsupportedMessage(provider: string): string {
    "不支援的 STT provider: " + (provider + ("，可用選項: " + "faster-whisper, qwen3-asr"))
  }

  /** The backend a name selects, built from its default configuration, or a
      `ValueError` that quotes the name as given and lists the two choices. */
  function Create(provider: string): (r: Result<Backend, Failure>)
    ensures r.Ok? && r.value.FasterWhisper? <==> Lower(Strip(provider)) in WhisperNames
    ensures r.Ok? && r.value.Qwen3Asr? <==> Lower(Strip(provider)) in QwenNames
    ensures r.Ok? && r.value.FasterWhisper? ==> r.value.config == DefaultFasterWhisperConfig
    ensures r.Ok? && r.value.Qwen3Asr? ==> r.value.provider == Qwen.Configure(DefaultQwen3AsrConfig)
    ensures r.Err? ==> r.error.kind == "ValueError"
  {
    var normalized := Lower(Strip(provider));
    if normalized in WhisperNames then Ok(FasterWhisper(DefaultFasterWhisperConfig))
    else if normalized in QwenNames then Ok(Qwen3Asr(Qwen.Configure(DefaultQwen3AsrConfig)))
    else Err(Failure("ValueError", UnsupportedMessage(provider)))
  }

  /** The two alias sets are disjoint, so no name is ambiguous. */
  lemma AliasesDisjoint()
    ensures WhisperNames !! QwenNames
  {
    assert "faster-whisper"[0] == 'f' && "whisper"[0] == 'w';
    assert forall n | n in QwenNames :: n[0] == 'q';
  }

  /** An unknown name is rejected with a message that quotes it verbatim and
      names both choices. */
  lemma RejectionMessage(provider: string)
    requires Lower(Strip(provider)) !in WhisperNames && Lower(Strip(provider)) !in QwenNames
    ensures Create(provider).Err?
    ensures Contains(Create(provider).error.message, provider)
    ensures Contains(Create(provider).error.message, "faster-whisper, qwen3-asr")
  {
    MessageQuotes(provider);
  }

  lemma MessageQuotes(provider: string)
    ensures Contains(UnsupportedMessage(provider), provider)
    ensures Contains(UnsupportedMessage(provider), "faster-whisper, qwen3-asr")
  {
    var choices := "faster-whisper, qwen3-asr";
    ContainsAt("不支援的 STT provider: ", provider, "，可用選項: " + choices);
    ContainsAt("，可用選項: ", choices, "");
    assert "，可用選項: " + choices == "，可用選項: " + (choices + "");
    ContainsAfter(provider, "，可用選項: " + choices, choices);
    ContainsAfter("不支援的 STT provider: ", provider + ("，可用選項: " + choices), choices);
  }

  /** Surrounding whitespace and ASCII letter case never change which backend
      is built: two names that differ only in those are accepted or rejected
      alike, and accepted ones give the same backend. */
  lemma PaddingAndCaseIrrelevant(p: string, s: string, q: string, t: string)
    requires Blank(p) && Blank(q)
    requires Lower(s) == Lower(t)
    ensures Create(p + (s + q)).Ok? <==> Create(t).Ok?
    ensures Create(p + (s + q)).Ok? ==> Create(p + (s + q)).value == Create(t).value
  {
    StripIgnoresPadding(p, s, q);
    LowerStrip(s);
    LowerStrip(t);
  }

  /** `" Qwen "` selects the generative engine. */
  lemma PaddedMixedCaseQwen()
    ensures Create(" Qwen ").Ok? && Create(" Qwen ").value.Qwen3Asr?
  {
    assert Strip(" Qwen ") == "Qwen" by {
      assert DropSpaces(" Qwen ") == DropSpaces("Qwen ");
      assert "Qwen "[..4] == "Qwen";
    }
    assert Lower("Qwen") == "qwen";
  }

  /** A model size is not a backend name: `"whisper-large"` is rejected. */
  lemma ModelSizeIsNotABackend()
    ensures Create("whisper-large").Err?
  {
    assert Strip("whisper-large") == "whisper-large" by {
      assert "whisper-large"[12] == 'e';
    }
    assert |Lower("whisper-large")| == 13;
    assert forall n | n in WhisperNames + QwenNames :: |n| != 13;
  }
}

=== FILE: LineSplit.dfy ===
/** `BatchTranscriber._split_text_lines`: turns untimed transcript text into
    display lines, splitting after sentence-ending punctuation and otherwise
    falling back to fixed-size word chunks. */
module LineSplit {
  import opened Text

  /** Words per line in the fallback chunking. */
  const ChunkSize: nat := 16

  /** The sentence-ending characters of the split pattern: `. ! ? 。 ！ ？`. */
  predicate IsTerminator(c: char) {
    c == '.' || c == '!' || c == '?' || c == '\U{3002}' || c == '\U{FF01}' || c == '\U{FF1F}'
  }

  /** The sentence split of `cur + s` once `cur` has been scanned: a
      whitespace run directly after a sentence-ending character is a cut and
      is dropped; every other character extends the current piece. */
  function Pieces(s: string, cur: string): (pieces: seq<string>)
    ensures |pieces| >= 1
    decreases |s|
  {
    if s == [] then [cur]
    else if IsSpace(s[0]) && |cur| > 0 && IsTerminator(cur[|cur| - 1]) then
      [cur] + Pieces(DropSpaces(s[1..]), "")
    else
      Pieces(s[1..], cur + [s[0]])
  }

  function SplitSentences(s: string): seq<string> {
    Pieces(s, "")
  }

  /** The pieces that are not empty, in their original order. */
  function NonEmpty(xs: seq<string>): (ys: seq<string>)
    ensures |ys| <= |xs|
    ensures forall i | 0 <= i < |ys| :: ys[i] != ""
  {
    if xs == [] then []
    else if xs[0] == "" then NonEmpty(xs[1..])
    else [xs[0]] + NonEmpty(xs[1..])
  }

  /** Consecutive runs of 16 words, each joined with single spaces; the last
      run holds what is left over. */
  function ChunkLines(words: seq<string>): (lines: seq<string>)
    ensures |lines| == (|words| + ChunkSize - 1) / ChunkSize
    decreases |words|
  {
    if words == [] then []
    else if |words| <= ChunkSize then [Join(words)]
    else [Join(words[..ChunkSize])] + ChunkLines(words[ChunkSize..])
  }

  /** The display lines of one untimed transcript text. */
  function SplitTextLines(text: string): (lines: seq<string>)
    ensures text == "" ==> lines == []
  {
    if text == "" then []
    else
      var normalized := Normalize(text);
      var sentences := NonEmpty(SplitSentences(normalized));
      if |sentences| > 1 then sentences
      else
        var words := SplitOn(normalized, ' ');
        if |words| <= ChunkSize then [normalized]
        else ChunkLines(words)
  }

  // ---------------------------------------------------------------------------
  // Sentence pieces

  lemma TerminatorIsNotSpace(c: char)
    requires IsTerminator(c)
    ensures !IsSpace(c)
  {
  }

  /** Every piece but the last ends with a sentence-ending character. */
  lemma {:induction false} PiecesEndWithTerminator(s: string, cur: string)
    ensures forall i | 0 <= i < |Pieces(s, cur)| - 1 ::
      Pieces(s, cur)[i] != "" && IsTerminator(Pieces(s, cur)[i][|Pieces(s, cur)[i]| - 1])
    decreases |s|
  {
    if s != [] {
      if IsSpace(s[0]) && |cur| > 0 && IsTerminator(cur[|cur| - 1]) {
        var rest := Pieces(DropSpaces(s[1..]), "");
        PiecesEndWithTerminator(DropSpaces(s[1..]), "");
        var p := [cur] + rest;
        assert Pieces(s, cur) == p;
        forall i | 0 <= i < |p| - 1
          ensures p[i] != "" && IsTerminator(p[i][|p[i]| - 1])
        {
          if i == 0 {
            assert p[i] == cur;
          } else {
            assert p[i] == rest[i - 1];
          }
        }
      } else {
        assert Pieces(s, cur) == Pieces(s[1..], cur + [s[0]]);
        PiecesEndWithTerminator(s[1..], cur + [s[0]]);
      }
    }
  }

  /** No sentence-ending character in `p` is directly followed by whitespace:
      a piece holds no place where the split would have cut. */
  predicate NoCutInside(p: string) {
    forall j | 0 <= j < |p| - 1 :: !(IsTerminator(p[j]) && IsSpace(p[j + 1]))
  }

  /** Every place where a sentence-ending character meets whitespace is a
      cut: no piece contains one. */
  lemma {:induction false} PiecesCutEverywhere(s: string, cur: string)
    requires NoCutInside(cur)
    ensures forall i | 0 <= i < |Pieces(s, cur)| :: NoCutInside(Pieces(s, cur)[i])
    decreases |s|
  {
    if s == [] {
      assert Pieces(s, cur) == [cur];
    } else if IsSpace(s[0]) && |cur| > 0 && IsTerminator(cur[|cur| - 1]) {
      var rest := Pieces(DropSpaces(s[1..]), "");
      PiecesCutEverywhere(DropSpaces(s[1..]), "");
      var p := [cur] + rest;
      assert Pieces(s, cur) == p;
      forall i | 0 <= i < |p|
        ensures NoCutInside(p[i])
      {
        if i > 0 {
          assert p[i] == rest[i - 1];
        }
      }
    } else {
      var next := cur + [s[0]];
      forall j | 0 <= j < |next| - 1
        ensures !(IsTerminator(next[j]) && IsSpace(next[j + 1]))
      {
        if j < |cur| - 1 {
          assert next[j] == cur[j] && next[j + 1] == cur[j + 1];
        } else {
          assert next[j] == cur[|cur| - 1] && next[j + 1] == s[0];
        }
      }
      assert Pieces(s, cur) == Pieces(s[1..], next);
      PiecesCutEverywhere(s[1..], next);
    }
  }

  /** The facts a cut in a normalised string rests on: the whitespace run is a
      single ' ' followed by a non-whitespace character. */
  lemma CutFacts(cur: string, s: string)
    requires Normalized(cur + s)
    requires |cur| > 0 && IsTerminator(cur[|cur| - 1])
    requires s != [] && IsSpace(s[0])
    ensures s[0] == ' ' && |s| >= 2 && !IsSpace(s[1])
    ensures DropSpaces(s[1..]) == s[1..]
    ensures Normalized(cur) && Normalized(s[1..])
    ensures cur + " " + s[1..] == cur + s
  {
    var t := cur + s;
    assert t[|cur|] == s[0];
    assert t[|cur| + 1] == s[1];
    TerminatorIsNotSpace(cur[|cur| - 1]);
    assert t[..|cur|] == cur;
    NormalizedTake(t, |cur|);
    assert t[|cur| + 1..] == s[1..];
    NormalizedDrop(t, |cur| + 1);
    assert s == " " + s[1..];
  }

  lemma ShiftFacts(cur: string, s: string)
    requires s != []
    ensures (cur + [s[0]]) + s[1..] == cur + s
  {
  }

  /** Splitting a normalised string into sentence pieces loses nothing: the
      pieces rejoin with single spaces to the input, each piece is normalised,
      and no piece is empty unless the input is. */
  lemma {:induction false} PiecesOfNormalized(s: string, cur: string)
    requires Normalized(cur + s)
    ensures Join(Pieces(s, cur)) == cur + s
    ensures forall i | 0 <= i < |Pieces(s, cur)| :: Normalized(Pieces(s, cur)[i])
    ensures |cur + s| > 0 ==> forall i | 0 <= i < |Pieces(s, cur)| :: Pieces(s, cur)[i] != ""
    decreases |s|
  {
    if s == [] {
      assert cur + s == cur;
    } else if IsSpace(s[0]) && |cur| > 0 && IsTerminator(cur[|cur| - 1]) {
      CutFacts(cur, s);
      var rest := Pieces(s[1..], "");
      assert Pieces(s, cur) == [cur] + rest;
      assert "" + s[1..] == s[1..];
      PiecesOfNormalized(s[1..], "");
      JoinCons(cur, rest);
      var p := [cur] + rest;
      forall i | 0 <= i < |p|
        ensures Normalized(p[i]) && p[i] != ""
      {
        if i > 0 {
          assert p[i] == rest[i - 1];
        }
      }
    } else {
      ShiftFacts(cur, s);
      PiecesOfNormalized(s[1..], cur + [s[0]]);
    }
  }

  /** The filter keeps exactly the non-empty pieces. */
  lemma {:induction false} NonEmptyMembership(xs: seq<string>, x: string)
    ensures x in NonEmpty(xs) <==> x in xs && x != ""
    decreases |xs|
  {
    if xs != [] {
      NonEmptyMembership(xs[1..], x);
      assert xs == [xs[0]] + xs[1..];
    }
  }

  lemma {:induction false} NonEmptyIdentity(xs: seq<string>)
    requires forall i | 0 <= i < |xs| :: xs[i] != ""
    ensures NonEmpty(xs) == xs
    decreases |xs|
  {
    if xs != [] {
      NonEmptyIdentity(xs[1..]);
    }
  }

  /** The empty normalised text has no sentence piece worth keeping. */
  lemma EmptyHasNoSentences()
    ensures NonEmpty(SplitSentences("")) == []
  {
    assert SplitSentences("") == [""];
    assert NonEmpty([""]) == NonEmpty([]);
  }

  /** Sentence splitting of a normalised, non-empty text: the kept pieces are
      all of the pieces, they rejoin to the text, each is normalised and none
      holds a sentence end followed by whitespace. */
  lemma SentencesOfNormalized(n: string)
    requires Normalized(n) && n != ""
    ensures NonEmpty(SplitSentences(n)) == SplitSentences(n)
    ensures Join(SplitSentences(n)) == n
    ensures forall i | 0 <= i < |SplitSentences(n)| :: Normalized(SplitSentences(n)[i]) && SplitSentences(n)[i] != ""
    ensures forall i | 0 <= i < |SplitSentences(n)| :: NoCutInside(SplitSentences(n)[i])
  {
    assert "" + n == n;
    PiecesOfNormalized(n, "");
    NonEmptyIdentity(SplitSentences(n));
    PiecesCutEverywhere(n, "");
  }

  // ---------------------------------------------------------------------------
  // Word chunks

  lemma {:induction false} ChunkLinesRejoin(ws: seq<string>)
    requires |ws| > 0
    ensures Join(ChunkLines(ws)) == Join(ws)
    decreases |ws|
  {
    if |ws| > ChunkSize {
      var rest := ChunkLines(ws[ChunkSize..]);
      ChunkLinesRejoin(ws[ChunkSize..]);
      JoinCons(Join(ws[..ChunkSize]), rest);
      JoinAppend(ws[..ChunkSize], ws[ChunkSize..]);
      assert ws[..ChunkSize] + ws[ChunkSize..] == ws;
    }
  }

  lemma ChunkOfWords(ws: seq<string>)
    requires AllWords(ws) && |ws| > 0
    ensures SplitOn(Join(ws), ' ') == ws
    ensures Normalized(Join(ws)) && Join(ws) != ""
  {
    WordsHaveNoSeparator(ws);
    SplitOnJoin(ws);
    JoinWordsNormalized(ws);
  }

  /** Chunking a word list: ceil(n/16) lines, each a normalised single-space
      join; every line but the last holds exactly 16 words and the last 1 to 16. */
  lemma {:induction false} ChunkLinesShape(ws: seq<string>)
    requires AllWords(ws) && |ws| > 0
    ensures var lines := ChunkLines(ws);
      && |lines| == (|ws| + ChunkSize - 1) / ChunkSize
      && (forall i | 0 <= i < |lines| :: Normalized(lines[i]) && lines[i] != "")
      && (forall i | 0 <= i < |lines| - 1 :: |SplitOn(lines[i], ' ')| == ChunkSize)
      && 1 <= |SplitOn(lines[|lines| - 1], ' ')| <= ChunkSize
    decreases |ws|
  {
    if |ws| <= ChunkSize {
      ChunkOfWords(ws);
    } else {
      var head := ws[..ChunkSize];
      var rest := ChunkLines(ws[ChunkSize..]);
      assert AllWords(head);
      assert AllWords(ws[ChunkSize..]);
      ChunkOfWords(head);
      ChunkLinesShape(ws[ChunkSize..]);
      var lines := [Join(head)] + rest;
      assert ChunkLines(ws) == lines;
      forall i | 0 <= i < |lines|
        ensures Normalized(lines[i]) && lines[i] != ""
        ensures i < |lines| - 1 ==> |SplitOn(lines[i], ' ')| == ChunkSize
      {
        if i > 0 {
          assert lines[i] == rest[i - 1];
        }
      }
      assert lines[|lines| - 1] == rest[|rest| - 1];
    }
  }

  // ---------------------------------------------------------------------------
  // The splitter

  /** The properties every result of the splitter has: joining the lines with
      single spaces gives back exactly the whitespace-normalised input; every
      line is normalised (no leading, trailing or doubled whitespace); no line
      is empty except in the single-line result `[""]`, which is returned
      exactly for non-empty, all-whitespace input. */
  lemma SplitTextLinesSound(text: string)
    ensures var lines := SplitTextLines(text);
      && Join(lines) == Normalize(text)
      && (forall i | 0 <= i < |lines| :: Normalized(lines[i]))
      && (lines == [""] || forall i | 0 <= i < |lines| :: lines[i] != "")
      && (lines == [""] <==> text != "" && Blank(text))
  {
    var lines := SplitTextLines(text);
    if text != "" {
      var n := Normalize(text);
      NormalizeIsJoinedWords(text);
      var ws := Words(text);
      WordsAreWords(text);
      if n == "" {
        EmptyHasNoSentences();
        assert SplitOn(n, ' ') == [""];
        assert lines == [""];
      } else {
        SentencesOfNormalized(n);
        JoinSplitOn(n);
        var words := SplitOn(n, ' ');
        if |SplitSentences(n)| <= 1 && |words| > ChunkSize {
          WordsEmptyIffBlank(text);
          ChunkOfWords(ws);
          assert words == ws;
          ChunkLinesRejoin(ws);
          ChunkLinesShape(ws);
        }
      }
    }
  }

  /** When the sentence split keeps two or more pieces, those pieces are the
      lines, unchanged however long; each line but the last ends with a
      sentence-ending character, and no line holds one followed by
      whitespace. */
  lemma SentenceBranch(text: string)
    requires text != ""
    requires |NonEmpty(SplitSentences(Normalize(text)))| > 1
    ensures var lines := SplitTextLines(text);
      && lines == SplitSentences(Normalize(text))
      && (forall i | 0 <= i < |lines| - 1 :: lines[i] != "" && IsTerminator(lines[i][|lines[i]| - 1]))
      && (forall i | 0 <= i < |lines| :: NoCutInside(lines[i]))
  {
    var n := Normalize(text);
    assert n != "" by {
      EmptyHasNoSentences();
    }
    assert Normalized(n) by {
      NormalizeIsJoinedWords(text);
    }
    SentencesOfNormalized(n);
    PiecesEndWithTerminator(n, "");
    assert SplitSentences(n) == Pieces(n, "");
  }

  /** Without a usable sentence split, text of at most 16 words is one line,
      and longer text becomes ceil(n/16) lines of exactly 16 words each except
      the last, which holds 1 to 16; n counts Python's `text.split()` words. */
  lemma ChunkBranch(text: string)
    requires text != ""
    requires |NonEmpty(SplitSentences(Normalize(text)))| <= 1
    ensures var lines := SplitTextLines(text);
      var n := |Words(text)|;
      && (n <= ChunkSize ==> lines == [Normalize(text)])
      && (n > ChunkSize ==>
            && |lines| == (n + ChunkSize - 1) / ChunkSize
            && (forall i | 0 <= i < |lines| - 1 :: |SplitOn(lines[i], ' ')| == ChunkSize)
            && 1 <= |SplitOn(lines[|lines| - 1], ' ')| <= ChunkSize)
  {
    if |Words(text)| <= ChunkSize {
      FewWordsOneLine(text);
    } else {
      ManyWordsChunked(text);
    }
  }

  /** Python's `normalized.split(" ")` is the `split()` word list, or `[""]`
      for blank text. */
  lemma SplitOnNormalized(text: string)
    ensures SplitOn(Normalize(text), ' ') == (if Words(text) == [] then [""] else Words(text))
  {
    var ws := Words(text);
    NormalizeIsJoinedWords(text);
    WordsAreWords(text);
    if ws == [] {
      assert Normalize(text) == "";
      assert SplitOn("", ' ') == [""];
    } else {
      ChunkOfWords(ws);
    }
  }

  lemma FewWordsOneLine(text: string)
    requires text != ""
    requires |NonEmpty(SplitSentences(Normalize(text)))| <= 1
    requires |Words(text)| <= ChunkSize
    ensures SplitTextLines(text) == [Normalize(text)]
  {
    SplitOnNormalized(text);
  }

  lemma ManyWordsChunked(text: string)
    requires text != ""
    requires |NonEmpty(SplitSentences(Normalize(text)))| <= 1
    requires |Words(text)| > ChunkSize
    ensures var lines := SplitTextLines(text);
      var n := |Words(text)|;
      && |lines| == (n + ChunkSize - 1) / ChunkSize
      && (forall i | 0 <= i < |lines| - 1 :: |SplitOn(lines[i], ' ')| == ChunkSize)
      && 1 <= |SplitOn(lines[|lines| - 1], ' ')| <= ChunkSize
  {
    LongTextIsChunked(text);
    WordsAreWords(text);
    ChunkLinesShape(Words(text));
  }

  lemma LongTextIsChunked(text: string)
    requires text != ""
    requires |NonEmpty(SplitSentences(Normalize(text)))| <= 1
    requires |Words(text)| > ChunkSize
    ensures SplitTextLines(text) == ChunkLines(Words(text))
  {
    SplitOnNormalized(text);
  }
}

=== FILE: Models.dfy ===
/** The common result shape every speech-to-text backend produces, the error
    value a failing call carries, and the two backends' configuration records. */
module Models {
  import opened Wrappers

  /** One transcribed span; times are seconds. `start == end == 0` marks text
      that has no real timing. */
  datatype Segment = Segment(start: real, end: real, text: string)

  /** A backend's answer for one audio file. `languageProbability` is the
      detection confidence, absent when the engine gives none. */
  datatype TranscriptionResult = TranscriptionResult(
    language: Option<string>,
    languageProbability: Option<real>,
    segments: seq<Segment>)

  /** A raised exception: its type name and its message (`str(exc)`). */
  datatype Failure = Failure(kind: string, message: string)

  /** Settings of the streaming, natively timed engine. */
  datatype FasterWhisperConfig = FasterWhisperConfig(
    modelSize: string,
    device: string,
    computeType: string,
    beamSize: int,
    vadFilter: bool,
    conditionOnPreviousText: bool)

  const DefaultFasterWhisperConfig := FasterWhisperConfig(
    modelSize := "medium",
    device := "cuda",
    computeType := "int8_float16",
    beamSize := 5,
    vadFilter := false,
    conditionOnPreviousText := false)

  /** Settings of the generative engine with its optional forced aligner. */
  datatype Qwen3AsrConfig = Qwen3AsrConfig(
    modelName: string,
    forcedAligner: string,
    deviceMap: string,
    dtype: string,
    maxInferenceBatchSize: int,
    maxNewTokens: int,
    language: Option<string>,
    returnTimeStamps: bool)

  const DefaultQwen3AsrConfig := Qwen3AsrConfig(
    modelName := "Qwen/Qwen3-ASR-1.7B",
    forcedAligner := "Qwen/Qwen3-ForcedAligner-0.6B",
    deviceMap := "cuda:0",
    dtype := "bfloat16",
    maxInferenceBatchSize := 8,
    maxNewTokens := 4096,
    language := None,
    returnTimeStamps := true)
}

=== FILE: Qwen.dfy ===
/** `Qwen3AsrSTTProvider`: its settings, the decode-and-retry fallback when
    the engine cannot read a file by path, and the conversion of the engine's
    first record into a transcription result. The engine itself, the audio
    container and the rendering of values are parameters. */
module Qwen {
  import opened Wrappers
  import opened Text
  import opened LineSplit
  import opened Models
  import opened QwenRecords
  import Batch

  // ---------------------------------------------------------------------------
  // Settings

  /** The tensor element types the dtype name selects among. */
  datatype Dtype = Float16 | Float32 | BFloat16

  /** `_resolve_dtype`: the two exact names select their type; any other name
      falls back to bfloat16. */
  function ResolveDtype(name: string): (d: Dtype)
    ensures d == Float16 <==> name == "float16"
    ensures d == Float32 <==> name == "float32"
    ensures d == BFloat16 <==> name != "float16" && name != "float32"
  {
    if name == "float16" then Float16
    else if name == "float32" then Float32
    else BFloat16
  }

  /** The forced aligner's load settings. */
  datatype AlignerSettings = AlignerSettings(name: string, dtype: Dtype, deviceMap: string)

  /** What the engine is loaded with. */
  datatype ModelSettings = ModelSettings(
    modelName: string,
    dtype: Dtype,
    deviceMap: string,
    maxInferenceBatchSize: int,
    maxNewTokens: int,
    aligner: Option<AlignerSettings>)

  /** A constructed provider: the loaded engine's settings and the per-call
      options it keeps. */
  datatype Provider = Provider(settings: ModelSettings, language: Option<string>, returnTimeStamps: bool)

  /** The constructor: the aligner is loaded only for a non-empty aligner
      name, on the same device and with the same dtype as the engine. */
  function Configure(config: Qwen3AsrConfig): (p: Provider)
    ensures p.settings.aligner.Some? <==> config.forcedAligner != ""
    ensures p.settings.aligner.Some? ==>
      p.settings.aligner.value == AlignerSettings(config.forcedAligner, p.settings.dtype, p.settings.deviceMap)
    ensures p.settings.dtype == ResolveDtype(config.dtype)
    ensures p.settings.deviceMap == config.deviceMap && p.settings.modelName == config.modelName
    ensures p.language == config.language && p.returnTimeStamps == config.returnTimeStamps
  {
    var dtype := ResolveDtype(config.dtype);
    var aligner := if config.forcedAligner != "" then Some(AlignerSettings(config.forcedAligner, dtype, config.deviceMap)) else None;
    Provider(
      ModelSettings(config.modelName, dtype, config.deviceMap, config.maxInferenceBatchSize, config.maxNewTokens, aligner),
      config.language,
      config.returnTimeStamps)
  }

  /** The default provider loads the 1.7B model in bfloat16 on the first GPU
      with the 0.6B forced aligner, asks for time stamps, and detects the
      language itself. */
  lemma DefaultProvider()
    ensures var p := Configure(DefaultQwen3AsrConfig);
      && p.settings.dtype == BFloat16
      && p.settings.aligner == Some(AlignerSettings("Qwen/Qwen3-ForcedAligner-0.6B", BFloat16, "cuda:0"))
      && p.returnTimeStamps
      && p.language == None
  {
  }

  // ---------------------------------------------------------------------------
  // Decoding with PyAV

  /** One decoded frame: its sample count per channel after the channels are
      averaged, and its sample rate (0 when unknown). */
  datatype Frame = Frame(samples: nat, sampleRate: int)

  /** What opening the file gives: nothing, or its stream types and the
      outcome of decoding the first audio stream. */
  datatype Container = Unopenable | Opened(streamTypes: seq<string>, decoding: Result<seq<Frame>, Failure>)

  /** A mono float32 waveform: its length in samples and its sample rate. */
  datatype Waveform = Waveform(samples: nat, sampleRate: int)

  /** The sample rate after a run of frames: the last non-zero frame rate,
      else the starting rate. */
  function LastRate(frames: seq<Frame>, rate: Option<int>): Option<int> {
    if frames == [] then rate
    else LastRate(frames[1..], if frames[0].sampleRate != 0 then Some(frames[0].sampleRate) else rate)
  }

  function TotalSamples(frames: seq<Frame>): nat {
    if frames == [] then 0 else frames[0].samples + TotalSamples(frames[1..])
  }

  /** Frame `i` is the last one that reports a sample rate. */
  predicate LastRated(frames: seq<Frame>, i: int) {
    && 0 <= i < |frames|
    && frames[i].sampleRate != 0
    && forall j | i < j < |frames| :: frames[j].sampleRate == 0
  }

  /** `_load_audio_with_av`: `None` when the file cannot be opened, has no
      audio stream, decodes to no frame or reports no sample rate; a decoding
      error propagates. */
  function LoadAudio(c: Container): (r: Result<Option<Waveform>, Failure>)
    ensures r.Err? <==> c.Opened? && "audio" in c.streamTypes && c.decoding.Err?
    ensures c.Unopenable? ==> r == Ok(None)
    ensures c.Opened? && "audio" !in c.streamTypes ==> r == Ok(None)
    ensures r.Ok? && r.value.Some? ==>
      c.Opened? && "audio" in c.streamTypes && c.decoding.Ok? && c.decoding.value != []
  {
    match c
    case Unopenable => Ok(None)
    case Opened(types, decoding) =>
      if "audio" !in types then Ok(None)
      else
        match decoding
        case Err(e) => Err(e)
        case Ok(frames) =>
          var rate := LastRate(frames, None);
          if frames == [] || rate.None? then Ok(None)
          else Ok(Some(Waveform(TotalSamples(frames), rate.value)))
  }

  /** The running rate ends as the rate of the last frame that reports one,
      or stays as it was when no frame does. */
  lemma {:induction false} LastRateIsLastReported(frames: seq<Frame>, rate: Option<int>)
    ensures (forall i | 0 <= i < |frames| :: frames[i].sampleRate == 0) ==> LastRate(frames, rate) == rate
    ensures forall i | LastRated(frames, i) :: LastRate(frames, rate) == Some(frames[i].sampleRate)
    decreases |frames|
  {
    if frames != [] {
      var next := if frames[0].sampleRate != 0 then Some(frames[0].sampleRate) else rate;
      LastRateIsLastReported(frames[1..], next);
      forall i | LastRated(frames, i)
        ensures LastRate(frames, rate) == Some(frames[i].sampleRate)
      {
        if i == 0 {
          assert forall j | 0 <= j < |frames[1..]| :: frames[1..][j].sampleRate == 0 by {
            forall j | 0 <= j < |frames[1..]|
              ensures frames[1..][j].sampleRate == 0
            {
              assert frames[1..][j] == frames[j + 1];
            }
          }
        } else {
          assert LastRated(frames[1..], i - 1);
        }
      }
    }
  }

  lemma {:induction false} SomeFrameRated(frames: seq<Frame>)
    requires exists i | 0 <= i < |frames| :: frames[i].sampleRate != 0
    ensures exists i :: LastRated(frames, i)
    decreases |frames|
  {
    var n := |frames| - 1;
    if frames[n].sampleRate != 0 {
      assert LastRated(frames, n);
    } else {
      var i :| 0 <= i < |frames| && frames[i].sampleRate != 0;
      assert i < n;
      assert frames[..n][i] == frames[i];
      SomeFrameRated(frames[..n]);
      var k :| LastRated(frames[..n], k);
      assert LastRated(frames, k);
    }
  }

  /** A waveform comes back exactly when decoding succeeds with some frame
      that reports a sample rate, and it carries the rate of the last frame
      that does. */
  lemma LoadAudioWaveform(types: seq<string>, frames: seq<Frame>)
    requires "audio" in types
    ensures LoadAudio(Opened(types, Ok(frames))).value.Some? <==>
      exists i | 0 <= i < |frames| :: frames[i].sampleRate != 0
    ensures forall i | LastRated(frames, i) ::
      LoadAudio(Opened(types, Ok(frames))) == Ok(Some(Waveform(TotalSamples(frames), frames[i].sampleRate)))
  {
    LastRateIsLastReported(frames, None);
    if exists i | 0 <= i < |frames| :: frames[i].sampleRate != 0 {
      SomeFrameRated(frames);
    }
  }

  // ---------------------------------------------------------------------------
  // The engine call and its fallback

  /** What the engine is asked to read: the file path or a decoded waveform. */
  datatype Input = PathInput(path: string) | WaveformInput(audio: Waveform)

  /** One engine call: the audio, the configured language, and whether time
      stamps are requested. */
  datatype Request = Request(audio: Input, language: Option<string>, returnTimeStamps: bool)

  /** What an engine call did: returned its records, or raised. */
  datatype Attempt = Returned(results: seq<Value>) | Raised(failure: Failure)

  function RequestFor(p: Provider, audio: Input): Request {
    Request(audio, p.language, p.returnTimeStamps)
  }

  /** The engine calls made, in order, and what the provider ends up with. */
  datatype Run = Run(calls: seq<Request>, outcome: Result<seq<Value>, Failure>)

  function ReadFailedMessage(name: string, first: Failure): string {
    "Qwen3-ASR 讀取音檔失敗 (" + (name + ("): " + (first.kind + (": " + first.message))))
  }

  function BothFailedMessage(first: Failure, second: Failure): string {
    "Qwen3-ASR 轉錄失敗（已嘗試路徑讀取與 PyAV fallback）: "
      + (first.kind + (": " + (first.message + ("; " + (second.kind + (": " + second.message))))))
  }

  /** The path-then-waveform strategy of `transcribe`: the engine reads the
      path; only if that raises is the file decoded with PyAV and the engine
      called once more with the waveform. `engine` stands for the engine. */
  function Attempts(p: Provider, path: string, c: Container, engine: Request -> Attempt): (run: Run)
    ensures 1 <= |run.calls| <= 2
    ensures run.calls[0] == RequestFor(p, PathInput(path))
    ensures forall i | 0 <= i < |run.calls| ::
      run.calls[i].language == p.language && run.calls[i].returnTimeStamps == p.returnTimeStamps
    ensures engine(run.calls[0]).Returned? ==> run == Run(run.calls, Ok(engine(run.calls[0]).results)) && |run.calls| == 1
    ensures |run.calls| == 2 <==> engine(run.calls[0]).Raised? && LoadAudio(c).Ok? && LoadAudio(c).value.Some?
    ensures |run.calls| == 2 ==> run.calls[1].audio == WaveformInput(LoadAudio(c).value.value)
    ensures run.outcome.Ok? <==> engine(run.calls[|run.calls| - 1]).Returned?
    ensures run.outcome.Ok? ==> engine(run.calls[|run.calls| - 1]) == Returned(run.outcome.value)
  {
    var first := RequestFor(p, PathInput(path));
    match engine(first)
    case Returned(results) => Run([first], Ok(results))
    case Raised(e1) =>
      match LoadAudio(c)
      case Err(e) => Run([first], Err(e))
      case Ok(None) => Run([first], Err(Failure("RuntimeError", ReadFailedMessage(Batch.FileName(path), e1))))
      case Ok(Some(audio)) =>
        var second := RequestFor(p, WaveformInput(audio));
        match engine(second)
        case Returned(results) => Run([first, second], Ok(results))
        case Raised(e2) => Run([first, second], Err(Failure("RuntimeError", BothFailedMessage(e1, e2))))
  }

  /** When the path read fails and PyAV gives nothing, the error is a
      `RuntimeError` naming the file and the first error's type and message. */
  lemma ReadFailure(p: Provider, path: string, c: Container, engine: Request -> Attempt)
    requires engine(RequestFor(p, PathInput(path))).Raised?
    requires LoadAudio(c) == Ok(None)
    ensures var e1 := engine(RequestFor(p, PathInput(path))).failure;
      var out := Attempts(p, path, c, engine).outcome;
      && out.Err? && out.error.kind == "RuntimeError"
      && Contains(out.error.message, Batch.FileName(path))
      && Contains(out.error.message, e1.kind)
      && Contains(out.error.message, e1.message)
  {
    var e1 := engine(RequestFor(p, PathInput(path))).failure;
    var name := Batch.FileName(path);
    var head := "Qwen3-ASR 讀取音檔失敗 (";
    var r3 := ": " + e1.message;
    var r2 := e1.kind + r3;
    var r1 := "): " + r2;
    ContainsAt(head, name, r1);
    ContainsAt("): ", e1.kind, r3);
    ContainsAfter(name, r1, e1.kind);
    ContainsAfter(head, name + r1, e1.kind);
    ContainsAt(": ", e1.message, "");
    assert r3 == ": " + (e1.message + "");
    ContainsAfter(e1.kind, r3, e1.message);
    ContainsAfter("): ", r2, e1.message);
    ContainsAfter(name, r1, e1.message);
    ContainsAfter(head, name + r1, e1.message);
  }

  /** When the retry with the waveform fails too, the error is a
      `RuntimeError` carrying both errors' types and messages. */
  lemma BothFailures(p: Provider, path: string, c: Container, engine: Request -> Attempt)
    requires engine(RequestFor(p, PathInput(path))).Raised?
    requires LoadAudio(c).Ok? && LoadAudio(c).value.Some?
    requires engine(RequestFor(p, WaveformInput(LoadAudio(c).value.value))).Raised?
    ensures var e1 := engine(RequestFor(p, PathInput(path))).failure;
      var e2 := engine(RequestFor(p, WaveformInput(LoadAudio(c).value.value))).failure;
      var out := Attempts(p, path, c, engine).outcome;
      && out.Err? && out.error.kind == "RuntimeError"
      && Contains(out.error.message, e1.kind)
      && Contains(out.error.message, e1.message)
      && Contains(out.error.message, e2.kind)
      && Contains(out.error.message, e2.message)
  {
    var e1 := engine(RequestFor(p, PathInput(path))).failure;
    var e2 := engine(RequestFor(p, WaveformInput(LoadAudio(c).value.value))).failure;
    var head := "Qwen3-ASR 轉錄失敗（已嘗試路徑讀取與 PyAV fallback）: ";
    var r5 := ": " + e2.message;
    var r4 := e2.kind + r5;
    var r3 := "; " + r4;
    var r2 := e1.message + r3;
    var r1 := ": " + r2;
    ContainsAt(head, e1.kind, r1);
    ContainsAt(": ", e1.message, r3);
    ContainsAfter(e1.kind, r1, e1.message);
    ContainsAfter(head, e1.kind + r1, e1.message);
    ContainsAt("; ", e2.kind, r5);
    ContainsAfter(e1.message, r3, e2.kind);
    ContainsAfter(": ", r2, e2.kind);
    ContainsAfter(e1.kind, r1, e2.kind);
    ContainsAfter(head, e1.kind + r1, e2.kind);
    ContainsAt(": ", e2.message, "");
    assert r5 == ": " + (e2.message + "");
    ContainsAfter(e2.kind, r5, e2.message);
    ContainsAfter("; ", r4, e2.message);
    ContainsAfter(e1.message, r3, e2.message);
    ContainsAfter(": ", r2, e2.message);
    ContainsAfter(e1.kind, r1, e2.message);
    ContainsAfter(head, e1.kind + r1, e2.message);
  }

  /** A decoding error during the fallback is raised as it is. */
  lemma DecodeErrorPropagates(p: Provider, path: string, c: Container, engine: Request -> Attempt)
    requires engine(RequestFor(p, PathInput(path))).Raised?
    requires LoadAudio(c).Err?
    ensures Attempts(p, path, c, engine).outcome == Err(c.decoding.error)
  {
  }

  // ---------------------------------------------------------------------------
  // From records to a transcription result

  /** The language field as stored: absent for `None`, its text otherwise. */
  function Language(v: Value, show: Value -> string): (l: Option<string>)
    ensures l.None? <==> v.VNone?
    ensures v.VStr? ==> l == Some(v.s)
  {
    if v.VNone? then None else Some(ToText(v, show))
  }

  /** The tail of `transcribe`: only the first record is used; its time-stamp
      entries become the segments, and when there are none its truthy `text`
      becomes one segment at 0–0. No language probability is ever reported. */
  function PostProcess(results: seq<Value>, show: Value -> string, parse: string -> Option<real>): (r: Result<TranscriptionResult, Failure>)
    ensures results == [] ==> r == Ok(TranscriptionResult(None, None, []))
    ensures r.Ok? ==> r.value.languageProbability == None
    ensures r.Err? <==> results != [] && ExtractSegments(results[0], show, parse).Err?
  {
    if results == [] then Ok(TranscriptionResult(None, None, []))
    else
      var record := results[0];
      match ExtractSegments(record, show, parse)
      case Err(e) => Err(e)
      case Ok(segments) =>
        var text := PickField(record, "text");
        var chosen := if segments == [] && Truthy(text) then [Segment(0.0, 0.0, ToText(text, show))] else segments;
        Ok(TranscriptionResult(Language(PickField(record, "language"), show), None, chosen))
  }

  /** Records after the first never influence the result. */
  lemma FirstRecordOnly(record: Value, more: seq<Value>, show: Value -> string, parse: string -> Option<real>)
    ensures PostProcess([record] + more, show, parse) == PostProcess([record], show, parse)
  {
    assert ([record] + more)[0] == record;
  }

  /** Time-stamp entries win over the record's text: with at least one
      segment extracted, the segments are exactly the extracted ones. */
  lemma SegmentsWinOverText(record: Value, show: Value -> string, parse: string -> Option<real>)
    requires ExtractSegments(record, show, parse).Ok? && ExtractSegments(record, show, parse).value != []
    ensures PostProcess([record], show, parse).Ok?
    ensures PostProcess([record], show, parse).value.segments == ExtractSegments(record, show, parse).value
    ensures PostProcess([record], show, parse).value.language == Language(PickField(record, "language"), show)
  {
  }

  /** With no usable time stamps but a text, the result is the single
      synthesised 0–0 segment, which the batch writes through its untimed
      branch: the transcript is the line split of the stripped text. */
  lemma TextOnlyIsUntimed(record: Value, show: Value -> string, parse: string -> Option<real>)
    requires ExtractSegments(record, show, parse) == Ok([])
    requires Truthy(PickField(record, "text"))
    ensures var r := PostProcess([record], show, parse);
      var t := ToText(PickField(record, "text"), show);
      && r.Ok?
      && r.value.segments == [Segment(0.0, 0.0, t)]
      && r.value.language == Language(PickField(record, "language"), show)
      && !Batch.HasRealTimestamps(r.value.segments)
      && Batch.Texts(Batch.TranscriptLines(r.value)) == SplitTextLines(Strip(t))
  {
    var r := PostProcess([record], show, parse);
    var t := ToText(PickField(record, "text"), show);
    var segs := [Segment(0.0, 0.0, t)];
    assert r.value.segments == segs;
    assert segs[1..] == [];
    assert Batch.StrippedTexts(segs[1..]) == [];
    if Strip(t) != "" {
      assert Batch.StrippedTexts(segs) == [Strip(t)];
    } else {
      assert Batch.StrippedTexts(segs) == [];
    }
    assert Batch.PlainText(segs) == Strip(t);
    Batch.UntimedTranscript(r.value);
  }

  /** Neither time stamps nor text: an empty result that still reports the
      record's language. */
  lemma NothingUsable(record: Value, show: Value -> string, parse: string -> Option<real>)
    requires ExtractSegments(record, show, parse) == Ok([])
    requires !Truthy(PickField(record, "text"))
    ensures PostProcess([record], show, parse) ==
      Ok(TranscriptionResult(Language(PickField(record, "language"), show), None, []))
  {
  }

  /** `transcribe`: the engine calls with their fallback, then the first
      record's conversion. */
  function Transcribe(p: Provider, path: string, c: Container, engine: Request -> Attempt,
                      show: Value -> string, parse: string -> Option<real>): (r: Result<TranscriptionResult, Failure>)
    ensures Attempts(p, path, c, engine).outcome.Err? ==> r == Err(Attempts(p, path, c, engine).outcome.error)
    ensures Attempts(p, path, c, engine).outcome.Ok? ==>
      r == PostProcess(Attempts(p, path, c, engine).outcome.value, show, parse)
    ensures r.Ok? ==> r.value.languageProbability == None
  {
    match Attempts(p, path, c, engine).outcome
    case Err(e) => Err(e)
    case Ok(results) => PostProcess(results, show, parse)
  }

  /** When the engine reads the path, the container is never looked at: the
      result is the same whatever decoding would have given. */
  lemma PathSuccessIgnoresContainer(p: Provider, path: string, c1: Container, c2: Container, engine: Request -> Attempt,
                                     show: Value -> string, parse: string -> Option<real>)
    requires engine(RequestFor(p, PathInput(path))).Returned?
    ensures Transcribe(p, path, c1, engine, show, parse) == Transcribe(p, path, c2, engine, show, parse)
    ensures Transcribe(p, path, c1, engine, show, parse) ==
      PostProcess(engine(RequestFor(p, PathInput(path))).results, show, parse)
  {
  }
}

=== FILE: QwenRecords.dfy ===
/** The dynamically shaped records the generative engine returns, and how the
    provider reads them: field lookup on mappings and attribute-bearing
    objects alike, and the conversion of time-stamp entries into segments. */
module QwenRecords {
  import opened Wrappers
  import opened Models

  /** The run-time values a record can hold. `VSeq` is a list (or, with
      `tuple` set, a tuple); `VDict` is a dict as its key/value pairs in
      insertion order; `VObj` is any other object, given by its attributes
      and, when it is a sized iterable container, its items. */
  datatype Value =
    | VNone
    | VBool(b: bool)
    | VInt(i: int)
    | VFloat(x: real)
    | VStr(s: string)
    | VSeq(items: seq<Value>, tuple: bool)
    | VDict(entries: seq<(string, Value)>)
    | VObj(attrs: seq<(string, Value)>, contents: Option<seq<Value>>)

  /** Python truthiness. A plain object is true; a container is true when it
      has items. */
  predicate Truthy(v: Value) {
    match v
    case VNone => false
    case VBool(b) => b
    case VInt(i) => i != 0
    case VFloat(x) => x != 0.0
    case VStr(s) => s != ""
    case VSeq(items, _) => items != []
    case VDict(entries) => entries != []
    case VObj(_, contents) => contents != Some([])
  }

  /** The name `type(v).__name__` reports. */
  function TypeName(v: Value): string {
    match v
    case VNone => "NoneType"
    case VBool(_) => "bool"
    case VInt(_) => "int"
    case VFloat(_) => "float"
    case VStr(_) => "str"
    case VSeq(_, tuple) => if tuple then "tuple" else "list"
    case VDict(_) => "dict"
    case VObj(_, _) => "object"
  }

  /** `_pick_field`: `source.get(key)` on a dict, `getattr(source, key, None)`
      on anything else. Only objects carry attributes here. */
  function PickField(source: Value, key: string): (v: Value)
    ensures !source.VDict? && !source.VObj? ==> v == VNone
  {
    match source
    case VDict(entries) => Lookup(entries, key)
    case VObj(attrs, _) => Lookup(attrs, key)
    case _ => VNone
  }

  /** The value stored under `key`, or `VNone` when there is none. */
  function Lookup(pairs: seq<(string, Value)>, key: string): (v: Value)
    ensures v != VNone ==> exists i | 0 <= i < |pairs| :: pairs[i] == (key, v)
  {
    if pairs == [] then VNone
    else if pairs[0].0 == key then pairs[0].1
    else Lookup(pairs[1..], key)
  }

  /** A key that is present is found, with the value stored under it. */
  lemma {:induction false} LookupFinds(pairs: seq<(string, Value)>, key: string, v: Value)
    requires (key, v) in pairs
    requires forall i, j | 0 <= i < j < |pairs| :: pairs[i].0 != pairs[j].0
    ensures Lookup(pairs, key) == v
    decreases |pairs|
  {
    if pairs[0] != (key, v) {
      assert pairs[0].0 != key by {
        var j :| 0 <= j < |pairs| && pairs[j] == (key, v);
      }
      assert (key, v) in pairs[1..];
      LookupFinds(pairs[1..], key, v);
    }
  }

  /** A missing key reads as `None`. */
  lemma {:induction false} LookupMissing(pairs: seq<(string, Value)>, key: string)
    requires forall i | 0 <= i < |pairs| :: pairs[i].0 != key
    ensures Lookup(pairs, key) == VNone
    decreases |pairs|
  {
    if pairs != [] {
      LookupMissing(pairs[1..], key);
    }
  }

  /** A dict and an object exposing the same names are read identically. */
  lemma DictActsLikeObject(pairs: seq<(string, Value)>, contents: Option<seq<Value>>, key: string)
    ensures PickField(VDict(pairs), key) == PickField(VObj(pairs, contents), key)
  {
  }

  /** What `for item in v` walks over: the items of a list, tuple or sized
      container, the one-character strings of a string, the keys of a dict;
      anything else raises `TypeError`. */
  function Iterate(v: Value): (r: Result<seq<Value>, Failure>)
    ensures r.Err? <==> v.VNone? || v.VBool? || v.VInt? || v.VFloat? || (v.VObj? && v.contents.None?)
    ensures r.Err? ==> r.error.kind == "TypeError"
    ensures r.Ok? && v.VSeq? ==> r.value == v.items
  {
    match v
    case VSeq(items, _) => Ok(items)
    case VStr(s) => Ok(seq(|s|, i requires 0 <= i < |s| => VStr([s[i]])))
    case VDict(entries) => Ok(seq(|entries|, i requires 0 <= i < |entries| => VStr(entries[i].0)))
    case VObj(_, Some(items)) => Ok(items)
    case _ => Err(Failure("TypeError", "'" + TypeName(v) + "' object is not iterable"))
  }

  /** `float(v)` for a value already known not to be `None`. `parse` stands
      for the reading of a numeric string, absent when the string is not a
      number. */
  function ToFloat(v: Value, parse: string -> Option<real>): (r: Result<real, Failure>)
    ensures v.VFloat? ==> r == Ok(v.x)
    ensures v.VInt? ==> r == Ok(v.i as real)
    ensures v.VSeq? || v.VDict? || v.VObj? || v.VNone? ==> r.Err? && r.error.kind == "TypeError"
  {
    match v
    case VFloat(x) => Ok(x)
    case VInt(i) => Ok(i as real)
    case VBool(b) => Ok(if b then 1.0 else 0.0)
    case VStr(s) =>
      (match parse(s)
       case Some(x) => Ok(x)
       case None => Err(Failure("ValueError", "could not convert string to float: '" + s + "'")))
    case _ => Err(Failure("TypeError", "float() argument must be a string or a real number, not '" + TypeName(v) + "'"))
  }

  /** `str(v)`: the string itself for a string; `show` stands for the
      rendering of every other value. */
  function ToText(v: Value, show: Value -> string): (t: string)
    ensures v.VStr? ==> t == v.s
  {
    if v.VStr? then v.s else show(v)
  }

  /** The three fields an entry provides, positional ones taking precedence
      over named ones for a list or tuple of at least three items. */
  datatype Fields = Fields(start: Value, end: Value, text: Value)

  function EntryFields(item: Value): (f: Fields)
    ensures item.VSeq? && |item.items| >= 3 ==> f == Fields(item.items[0], item.items[1], item.items[2])
    ensures !item.VSeq? ==> f == Fields(PickField(item, "start_time"), PickField(item, "end_time"), PickField(item, "text"))
  {
    if item.VSeq? && |item.items| >= 3 then Fields(item.items[0], item.items[1], item.items[2])
    else Fields(PickField(item, "start_time"), PickField(item, "end_time"), PickField(item, "text"))
  }

  /** One time-stamp entry: skipped (`None`) when any field is missing,
      otherwise converted to a segment, which may raise. */
  function EntrySegment(item: Value, show: Value -> string, parse: string -> Option<real>): (r: Result<Option<Segment>, Failure>)
    ensures r == Ok(None) <==> EntryFields(item).text.VNone? || EntryFields(item).start.VNone? || EntryFields(item).end.VNone?
    ensures r.Ok? && r.value.Some? ==>
      && ToFloat(EntryFields(item).start, parse) == Ok(r.value.value.start)
      && ToFloat(EntryFields(item).end, parse) == Ok(r.value.value.end)
  {
    var f := EntryFields(item);
    if f.text.VNone? || f.start.VNone? || f.end.VNone? then Ok(None)
    else
      match ToFloat(f.start, parse)
      case Err(e) => Err(e)
      case Ok(start) =>
        match ToFloat(f.end, parse)
        case Err(e) => Err(e)
        case Ok(end) => Ok(Some(Segment(start, end, ToText(f.text, show))))
  }

  /** The segments of a run of entries, in order; the first failing entry
      aborts the whole run. */
  function EntrySegments(items: seq<Value>, show: Value -> string, parse: string -> Option<real>): (r: Result<seq<Segment>, Failure>)
    ensures r.Ok? ==> |r.value| <= |items|
  {
    if items == [] then Ok([])
    else
      match EntrySegment(items[0], show, parse)
      case Err(e) => Err(e)
      case Ok(first) =>
        match EntrySegments(items[1..], show, parse)
        case Err(e) => Err(e)
        case Ok(rest) => Ok((if first.Some? then [first.value] else []) + rest)
  }

  /** `_extract_segments`: the entries under `time_stamps`, or under
      `timestamps` when the former is missing or falsy; none when both are. */
  function ExtractSegments(result: Value, show: Value -> string, parse: string -> Option<real>): (r: Result<seq<Segment>, Failure>)
    ensures !Truthy(PickField(result, "time_stamps")) && !Truthy(PickField(result, "timestamps")) ==> r == Ok([])
    ensures !result.VDict? && !result.VObj? ==> r == Ok([])
  {
    var primary := PickField(result, "time_stamps");
    var stamps := if Truthy(primary) then primary else PickField(result, "timestamps");
    if !Truthy(stamps) then Ok([])
    else
      match Iterate(stamps)
      case Err(e) => Err(e)
      case Ok(items) => EntrySegments(items, show, parse)
  }

  // ---------------------------------------------------------------------------
  // Lemmas

  /** With `time_stamps` missing or falsy and `timestamps` truthy, the entries
      come from `timestamps`, and an entry list that cannot be iterated fails. */
  lemma TimestampsFallback(result: Value, show: Value -> string, parse: string -> Option<real>)
    requires !Truthy(PickField(result, "time_stamps")) && Truthy(PickField(result, "timestamps"))
    ensures ExtractSegments(result, show, parse) ==
      match Iterate(PickField(result, "timestamps"))
      case Err(e) => Err(e)
      case Ok(items) => EntrySegments(items, show, parse)
  {
  }

  /** Converting a run of entries is converting its two halves and
      concatenating, failures included: the first failure wins. */
  lemma {:induction false} EntrySegmentsAppend(a: seq<Value>, b: seq<Value>, show: Value -> string, parse: string -> Option<real>)
    ensures EntrySegments(a + b, show, parse) ==
      match EntrySegments(a, show, parse)
      case Err(e) => Err(e)
      case Ok(x) =>
        match EntrySegments(b, show, parse)
        case Err(e) => Err(e)
        case Ok(y) => Ok(x + y)
    decreases |a|
  {
    if a == [] {
      assert a + b == b;
      assert EntrySegments(a, show, parse) == Ok([]);
      match EntrySegments(b, show, parse)
      case Err(_) =>
      case Ok(y) =>
        assert [] + y == y;
    } else {
      assert (a + b)[0] == a[0];
      assert (a + b)[1..] == a[1..] + b;
      EntrySegmentsAppend(a[1..], b, show, parse);
      match EntrySegment(a[0], show, parse)
      case Err(_) =>
      case Ok(first) =>
        var x := if first.Some? then [first.value] else [];
        match EntrySegments(a[1..], show, parse)
        case Err(_) =>
        case Ok(rest) =>
          match EntrySegments(b, show, parse)
          case Err(_) =>
          case Ok(y) =>
            assert x + (rest + y) == (x + rest) + y;
      }
  }

  /** A lone entry gives its own segment, or nothing when it is skipped. */
  lemma SingleEntry(item: Value, show: Value -> string, parse: string -> Option<real>)
    ensures EntrySegments([item], show, parse) ==
      match EntrySegment(item, show, parse)
      case Err(e) => Err(e)
      case Ok(None) => Ok([])
      case Ok(Some(s)) => Ok([s])
  {
    assert [item][1..] == [];
    assert EntrySegments([item][1..], show, parse) == Ok([]);
    match EntrySegment(item, show, parse)
    case Err(_) =>
    case Ok(None) =>
    case Ok(Some(x)) =>
      assert [x] + [] == [x];
  }

  /** An entry is converted exactly when its three fields are present and
      its times convert; its text is kept as given when it is a string. */
  lemma EntryConversion(item: Value, show: Value -> string, parse: string -> Option<real>)
    ensures var f := EntryFields(item);
      && (EntrySegment(item, show, parse) == Ok(None) <==> f.text.VNone? || f.start.VNone? || f.end.VNone?)
      && (EntrySegment(item, show, parse).Ok? && EntrySegment(item, show, parse).value.Some? <==>
           !f.text.VNone? && ToFloat(f.start, parse).Ok? && ToFloat(f.end, parse).Ok?)
      && (f.text.VStr? && EntrySegment(item, show, parse).Ok? && EntrySegment(item, show, parse).value.Some? ==>
           EntrySegment(item, show, parse).value.value.text == f.text.s)
  {
    var f := EntryFields(item);
    if !(f.text.VNone? || f.start.VNone? || f.end.VNone?) {
      assert !f.start.VNone? && !f.end.VNone?;
    }
  }

  /** A list entry of at least three items is read positionally, whatever
      named fields it might also carry: `[0.5, 1.25, "hi"]` is the segment
      from 0.5 to 1.25 saying "hi". */
  lemma PositionalEntry(start: real, end: real, text: string, more: seq<Value>, show: Value -> string, parse: string -> Option<real>)
    ensures EntrySegment(VSeq([VFloat(start), VFloat(end), VStr(text)] + more, false), show, parse) ==
      Ok(Some(Segment(start, end, text)))
  {
    var items := [VFloat(start), VFloat(end), VStr(text)] + more;
    assert items[0] == VFloat(start) && items[1] == VFloat(end) && items[2] == VStr(text);
  }

  /** A dict entry with `start_time`, `end_time` and `text` gives that segment. */
  lemma NamedEntry(start: real, end: real, text: string, show: Value -> string, parse: string -> Option<real>)
    ensures EntrySegment(VDict([("start_time", VFloat(start)), ("end_time", VFloat(end)), ("text", VStr(text))]), show, parse) ==
      Ok(Some(Segment(start, end, text)))
  {
    var pairs := [("start_time", VFloat(start)), ("end_time", VFloat(end)), ("text", VStr(text))];
    assert "start_time"[0] != "end_time"[0] && "start_time"[0] != "text"[0] && "end_time"[0] != "text"[0];
    assert Lookup(pairs, "start_time") == VFloat(start);
    assert pairs[1..] == [("end_time", VFloat(end)), ("text", VStr(text))];
    assert Lookup(pairs, "end_time") == VFloat(end);
    assert pairs[1..][1..] == [("text", VStr(text))];
    assert Lookup(pairs[1..][1..], "text") == VStr(text);
    assert Lookup(pairs[1..], "text") == VStr(text);
  }

  /** `timestamps` is consulted only when `time_stamps` is missing or falsy. */
  lemma StampsPreferred(result: Value, show: Value -> string, parse: string -> Option<real>)
    requires Truthy(PickField(result, "time_stamps"))
    ensures ExtractSegments(result, show, parse) ==
      match Iterate(PickField(result, "time_stamps"))
      case Err(e) => Err(e)
      case Ok(items) => EntrySegments(items, show, parse)
  {
  }

  /** Strings and dicts are iterable but hold no usable entry: every item is a
      bare string, so every entry is skipped and no segment comes out. */
  lemma {:induction false} StringItemsAreSkipped(items: seq<Value>, show: Value -> string, parse: string -> Option<real>)
    requires forall i | 0 <= i < |items| :: items[i].VStr?
    ensures EntrySegments(items, show, parse) == Ok([])
    decreases |items|
  {
    if items != [] {
      assert EntrySegment(items[0], show, parse) == Ok(None);
      StringItemsAreSkipped(items[1..], show, parse);
    }
  }

  lemma StringOrDictStampsGiveNothing(result: Value, show: Value -> string, parse: string -> Option<real>)
    requires var v := PickField(result, "time_stamps"); Truthy(v) && (v.VStr? || v.VDict?)
    ensures ExtractSegments(result, show, parse) == Ok([])
  {
    var items := Iterate(PickField(result, "time_stamps")).value;
    StringItemsAreSkipped(items, show, parse);
  }
}

=== FILE: Text.dfy ===
/** String primitives the transcript normalisation is built from: Python's
    whitespace class, `str.strip`, ASCII `str.lower`, `" ".join`, `str.split(" ")`,
    the word list of `str.split()`, and the normalisation that collapses
    whitespace runs to one space and strips both ends. Strings are sequences of Unicode scalar values. */
module Text {

  /** The characters Python's `str.isspace` (and so `\s` and `str.strip`) accept. */
  predicate IsSpace(c: char) {
    || ('\t' <= c <= '\r')
    || ('\U{1C}' <= c <= '\U{1F}')
    || c == ' '
    || c == '\U{85}'
    || c == '\U{A0}'
    || c == '\U{1680}'
    || ('\U{2000}' <= c <= '\U{200A}')
    || c == '\U{2028}'
    || c == '\U{2029}'
    || c == '\U{202F}'
    || c == '\U{205F}'
    || c == '\U{3000}'
  }

  /** Every character is whitespace (the empty string included). */
  predicate Blank(s: string) {
    forall i | 0 <= i < |s| :: IsSpace(s[i])
  }

  /** A word: a non-empty run of non-whitespace characters. */
  predicate IsWord(w: string) {
    |w| > 0 && forall i | 0 <= i < |w| :: !IsSpace(w[i])
  }

  predicate AllWords(ws: seq<string>) {
    forall i | 0 <= i < |ws| :: IsWord(ws[i])
  }

  /** The only whitespace is a single ' ' standing between two non-whitespace
      characters: no leading, trailing, doubled or non-' ' whitespace. */
  predicate Normalized(s: string) {
    forall i | 0 <= i < |s| :: IsSpace(s[i]) ==> s[i] == ' ' && 0 < i < |s| - 1 && !IsSpace(s[i + 1])
  }

  // ---------------------------------------------------------------------------
  // Case folding

  function LowerChar(c: char): char {
    if 'A' <= c <= 'Z' then (c as int + 32) as char else c
  }

  /** `str.lower`, restricted to ASCII letters. */
  function Lower(s: string): (r: string)
    ensures |r| == |s|
    ensures forall i | 0 <= i < |s| :: r[i] == LowerChar(s[i])
  {
    seq(|s|, i requires 0 <= i < |s| => LowerChar(s[i]))
  }

  // ---------------------------------------------------------------------------
  // Stripping

  /** `str.lstrip()`: drops the leading whitespace run. */
  function DropSpaces(s: string): (r: string)
    ensures |r| <= |s|
    ensures r == [] || !IsSpace(r[0])
  {
    if s != [] && IsSpace(s[0]) then DropSpaces(s[1..]) else s
  }

  /** `str.rstrip()`: drops the trailing whitespace run. */
  function StripRight(s: string): (r: string)
    ensures |r| <= |s|
    ensures r == [] || !IsSpace(r[|r| - 1])
  {
    if s != [] && IsSpace(s[|s| - 1]) then StripRight(s[..|s| - 1]) else s
  }

  /** `str.strip()`. */
  function Strip(s: string): string {
    StripRight(DropSpaces(s))
  }

  // ---------------------------------------------------------------------------
  // Words, joining and splitting

  /** Length of the leading run of non-whitespace characters. */
  function WordLen(s: string): (k: nat)
    ensures k <= |s|
    ensures forall i | 0 <= i < k :: !IsSpace(s[i])
    ensures k < |s| ==> IsSpace(s[k])
  {
    if s == [] || IsSpace(s[0]) then 0 else 1 + WordLen(s[1..])
  }

  /** The maximal whitespace-free runs of `s`, in order: Python's `s.split()`. */
  function Words(s: string): seq<string>
    decreases |s|
  {
    if s == [] then []
    else if IsSpace(s[0]) then Words(s[1..])
    else
      var k := WordLen(s);
      [s[..k]] + Words(s[k..])
  }

  /** The words joined with one space between neighbours. */
  function Join(ws: seq<string>): string {
    if |ws| == 0 then ""
    else if |ws| == 1 then ws[0]
    else ws[0] + " " + Join(ws[1..])
  }

  /** `s.split(sep)` with an explicit one-character separator: empty parts are kept. */
  function SplitOn(s: string, sep: char): (parts: seq<string>)
    ensures |parts| >= 1
  {
    if s == [] then [""]
    else
      var rest := SplitOn(s[1..], sep);
      if s[0] == sep then [""] + rest else [[s[0]] + rest[0]] + rest[1..]
  }

  /** Whitespace collapsing: every maximal whitespace run becomes one ' '. */
  function Collapse(s: string): string
    decreases |s|
  {
    if s == [] then []
    else if IsSpace(s[0]) then " " + Collapse(DropSpaces(s[1..]))
    else
      var k := WordLen(s);
      s[..k] + Collapse(s[k..])
  }

  /** The normalisation of untimed text: whitespace runs collapsed to one
      space, then both ends stripped. */
  function Normalize(s: string): (r: string)
    ensures r == [] || (!IsSpace(r[0]) && !IsSpace(r[|r| - 1]))
  {
    StripRightPrefix(DropSpaces(Collapse(s)));
    Strip(Collapse(s))
  }

  /** `part in s` for strings. */
  predicate Contains(s: string, part: string) {
    exists i | 0 <= i <= |s| :: part <= s[i..]
  }

  lemma ContainsAt(x: string, part: string, y: string)
    ensures Contains(x + (part + y), part)
  {
    assert part <= (x + (part + y))[|x|..];
  }

  lemma ContainsAfter(x: string, y: string, part: string)
    requires Contains(y, part)
    ensures Contains(x + y, part)
  {
    var i :| 0 <= i <= |y| && part <= y[i..];
    assert (x + y)[|x| + i..] == y[i..];
  }

  // ---------------------------------------------------------------------------
  // Lemmas: stripping

  lemma {:induction false} DropSpacesOfPadded(p: string, s: string)
    requires Blank(p)
    ensures DropSpaces(p + s) == DropSpaces(s)
    decreases |p|
  {
    if p != [] {
      assert (p + s)[1..] == p[1..] + s;
      DropSpacesOfPadded(p[1..], s);
    } else {
      assert p + s == s;
    }
  }

  lemma {:induction false} StripRightOfPadded(s: string, q: string)
    requires Blank(q)
    ensures StripRight(s + q) == StripRight(s)
    decreases |q|
  {
    if q != [] {
      assert (s + q)[..|s + q| - 1] == s + q[..|q| - 1];
      StripRightOfPadded(s, q[..|q| - 1]);
    } else {
      assert s + q == s;
    }
  }

  lemma {:induction false} DropSpacesAppend(s: string, q: string)
    ensures DropSpaces(s) != [] ==> DropSpaces(s + q) == DropSpaces(s) + q
    ensures DropSpaces(s) == [] && Blank(q) ==> DropSpaces(s + q) == []
    decreases |s|
  {
    if s == [] {
      assert s + q == q;
      if Blank(q) {
        BlankDropsAll(q);
      }
    } else if IsSpace(s[0]) {
      assert (s + q)[1..] == s[1..] + q;
      DropSpacesAppend(s[1..], q);
    }
  }

  /** What `lstrip()` keeps is a suffix of its input. */
  lemma {:induction false} DropSpacesSuffix(s: string)
    ensures DropSpaces(s) == s[|s| - |DropSpaces(s)|..]
    decreases |s|
  {
    if s != [] && IsSpace(s[0]) {
      DropSpacesSuffix(s[1..]);
    }
  }

  lemma {:induction false} DropSpacesKeepsLast(s: string)
    ensures DropSpaces(s) != [] ==> DropSpaces(s)[|DropSpaces(s)| - 1] == s[|s| - 1]
    decreases |s|
  {
    if s != [] && IsSpace(s[0]) {
      DropSpacesKeepsLast(s[1..]);
    }
  }

  lemma {:induction false} BlankDropsAll(s: string)
    requires Blank(s)
    ensures DropSpaces(s) == []
    decreases |s|
  {
    if s != [] {
      assert Blank(s[1..]);
      BlankDropsAll(s[1..]);
    }
  }

  /** Surrounding whitespace never changes what `strip()` returns. */
  lemma StripIgnoresPadding(p: string, s: string, q: string)
    requires Blank(p) && Blank(q)
    ensures Strip(p + (s + q)) == Strip(s)
  {
    DropSpacesOfPadded(p, s + q);
    DropSpacesAppend(s, q);
    if DropSpaces(s) != [] {
      StripRightOfPadded(DropSpaces(s), q);
    }
  }

  /** A string with non-whitespace ends is its own `strip()`. */
  lemma StripOfTrimmed(m: string)
    requires m == [] || (!IsSpace(m[0]) && !IsSpace(m[|m| - 1]))
    ensures Strip(m) == m
  {
  }

  lemma LowerTail(s: string)
    requires s != []
    ensures Lower(s[1..]) == Lower(s)[1..]
  {
  }

  lemma LowerFront(s: string)
    requires s != []
    ensures Lower(s[..|s| - 1]) == Lower(s)[..|s| - 1]
  {
  }

  lemma LowerCharKeepsSpace(c: char)
    ensures IsSpace(LowerChar(c)) == IsSpace(c)
  {
  }

  lemma {:induction false} LowerDropSpaces(s: string)
    ensures Lower(DropSpaces(s)) == DropSpaces(Lower(s))
    decreases |s|
  {
    if s != [] {
      var l := Lower(s);
      LowerCharKeepsSpace(s[0]);
      assert l[0] == LowerChar(s[0]);
      if IsSpace(s[0]) {
        LowerTail(s);
        LowerDropSpaces(s[1..]);
        calc {
          Lower(DropSpaces(s));
          Lower(DropSpaces(s[1..]));
          DropSpaces(Lower(s[1..]));
          DropSpaces(l[1..]);
          DropSpaces(l);
        }
      } else {
        assert DropSpaces(s) == s;
        assert DropSpaces(l) == l;
      }
    } else {
      assert Lower(s) == [];
    }
  }

  lemma {:induction false} LowerStripRight(s: string)
    ensures Lower(StripRight(s)) == StripRight(Lower(s))
    decreases |s|
  {
    if s != [] {
      var l := Lower(s);
      var n := |s| - 1;
      LowerCharKeepsSpace(s[n]);
      assert l[n] == LowerChar(s[n]);
      if IsSpace(s[n]) {
        LowerFront(s);
        assert StripRight(s) == StripRight(s[..n]);
        assert StripRight(l) == StripRight(l[..n]);
        LowerStripRight(s[..n]);
      } else {
        assert StripRight(s) == s;
        assert StripRight(l) == l;
      }
    }
  }

  /** ASCII lower-casing and `strip()` commute, since case folding never turns a
      letter into whitespace or back. */
  lemma LowerStrip(s: string)
    ensures Lower(Strip(s)) == Strip(Lower(s))
  {
    LowerStripRight(DropSpaces(s));
    LowerDropSpaces(s);
  }

  // ---------------------------------------------------------------------------
  // Lemmas: join and split round trips

  lemma {:induction false} JoinAppend(a: seq<string>, b: seq<string>)
    requires |a| > 0 && |b| > 0
    ensures Join(a + b) == Join(a) + " " + Join(b)
    decreases |a|
  {
    if |a| == 1 {
      assert (a + b)[1..] == b;
    } else {
      assert (a + b)[1..] == a[1..] + b;
      JoinAppend(a[1..], b);
    }
  }

  /** Joining the parts of `s.split(" ")` with single spaces gives back `s`. */
  lemma {:induction false} JoinSplitOn(s: string)
    ensures Join(SplitOn(s, ' ')) == s
    decreases |s|
  {
    if s != [] {
      var rest := SplitOn(s[1..], ' ');
      JoinSplitOn(s[1..]);
      if s[0] == ' ' {
        assert ([""] + rest)[1..] == rest;
      } else if |rest| > 1 {
        assert ([[s[0]] + rest[0]] + rest[1..])[1..] == rest[1..];
      }
    }
  }

  lemma {:induction false} SplitOnNoSeparator(w: string)
    requires ' ' !in w
    ensures SplitOn(w, ' ') == [w]
    decreases |w|
  {
    if w != [] {
      assert ' ' !in w[1..];
      SplitOnNoSeparator(w[1..]);
      assert [w[0]] + w[1..] == w;
    }
  }

  lemma {:induction false} SplitOnPrefix(w: string, rest: string)
    requires ' ' !in w
    ensures SplitOn(w + " " + rest, ' ') == [w] + SplitOn(rest, ' ')
    decreases |w|
  {
    var s := w + " " + rest;
    if w == [] {
      assert s[1..] == rest;
    } else {
      assert s[1..] == w[1..] + " " + rest;
      SplitOnPrefix(w[1..], rest);
      assert [w[0]] + w[1..] == w;
    }
  }

  /** Splitting a single-space join of separator-free parts on ' ' gives back the parts. */
  lemma {:induction false} SplitOnJoin(ws: seq<string>)
    requires |ws| > 0
    requires forall i | 0 <= i < |ws| :: ' ' !in ws[i]
    ensures SplitOn(Join(ws), ' ') == ws
    decreases |ws|
  {
    if |ws| == 1 {
      SplitOnNoSeparator(ws[0]);
    } else {
      SplitOnPrefix(ws[0], Join(ws[1..]));
      SplitOnJoin(ws[1..]);
    }
  }

  lemma WordsHaveNoSeparator(ws: seq<string>)
    requires AllWords(ws)
    ensures forall i | 0 <= i < |ws| :: ' ' !in ws[i]
  {
    forall i | 0 <= i < |ws|
      ensures ' ' !in ws[i]
    {
      assert IsWord(ws[i]);
    }
  }

  /** A single-space join of words is whitespace-normalised, and non-empty with
      non-whitespace ends when there is at least one word. */
  lemma {:induction false} JoinWordsNormalized(ws: seq<string>)
    requires AllWords(ws)
    ensures Normalized(Join(ws))
    ensures |ws| > 0 ==> |Join(ws)| > 0 && !IsSpace(Join(ws)[0]) && !IsSpace(Join(ws)[|Join(ws)| - 1])
    decreases |ws|
  {
    if |ws| == 1 {
      assert IsWord(ws[0]);
    } else if |ws| > 1 {
      var w := ws[0];
      var r := Join(ws[1..]);
      JoinWordsNormalized(ws[1..]);
      assert IsWord(w);
      var s := w + " " + r;
      assert Join(ws) == s;
      forall i | 0 <= i < |s|
        ensures IsSpace(s[i]) ==> s[i] == ' ' && 0 < i < |s| - 1 && !IsSpace(s[i + 1])
      {
        if i < |w| {
          assert s[i] == w[i];
        } else if i == |w| {
          assert s[i + 1] == r[0];
        } else {
          assert s[i] == r[i - |w| - 1];
          if i + 1 < |s| {
            assert s[i + 1] == r[i - |w|];
          }
        }
      }
    }
  }

  /** A prefix of a normalised string that does not end in whitespace is normalised. */
  lemma NormalizedTake(t: string, k: nat)
    requires Normalized(t) && k <= |t|
    requires k == 0 || !IsSpace(t[k - 1])
    ensures Normalized(t[..k])
  {
    var u := t[..k];
    forall i | 0 <= i < |u|
      ensures IsSpace(u[i]) ==> u[i] == ' ' && 0 < i < |u| - 1 && !IsSpace(u[i + 1])
    {
      assert u[i] == t[i];
      if i + 1 < |u| {
        assert u[i + 1] == t[i + 1];
      }
    }
  }

  /** A suffix of a normalised string that does not start with whitespace is normalised. */
  lemma NormalizedDrop(t: string, k: nat)
    requires Normalized(t) && k <= |t|
    requires k == |t| || !IsSpace(t[k])
    ensures Normalized(t[k..])
  {
    var u := t[k..];
    forall i | 0 <= i < |u|
      ensures IsSpace(u[i]) ==> u[i] == ' ' && 0 < i < |u| - 1 && !IsSpace(u[i + 1])
    {
      assert u[i] == t[k + i];
      if i + 1 < |u| {
        assert u[i + 1] == t[k + i + 1];
      }
    }
  }

  // ---------------------------------------------------------------------------
  // Lemmas: words and normalisation

  /** Every entry of Python's `s.split()` is a non-empty whitespace-free word. */
  lemma {:induction false} WordsAreWords(s: string)
    ensures AllWords(Words(s))
    decreases |s|
  {
    if s != [] {
      if IsSpace(s[0]) {
        WordsAreWords(s[1..]);
      } else {
        var k := WordLen(s);
        WordsAreWords(s[k..]);
      }
    }
  }

  lemma {:induction false} WordsDropSpaces(s: string)
    ensures Words(DropSpaces(s)) == Words(s)
    decreases |s|
  {
    if s != [] && IsSpace(s[0]) {
      WordsDropSpaces(s[1..]);
    }
  }

  lemma {:induction false} WordsEmptyIffBlank(s: string)
    ensures Words(s) == [] <==> Blank(s)
    decreases |s|
  {
    if s != [] {
      if IsSpace(s[0]) {
        WordsEmptyIffBlank(s[1..]);
        if Blank(s[1..]) {
          assert forall i | 1 <= i < |s| :: s[i] == s[1..][i - 1];
        }
      }
    }
  }

  lemma CollapseBlank(s: string)
    requires Blank(s) && s != []
    ensures Collapse(s) == " "
  {
    assert Blank(s[1..]);
    BlankDropsAll(s[1..]);
  }

  function Lead(s: string): string
    requires s != []
  {
    if IsSpace(s[0]) then " " else ""
  }

  function Trail(s: string): string
    requires s != []
  {
    if IsSpace(s[|s| - 1]) then " " else ""
  }

  lemma JoinCons(w: string, ws: seq<string>)
    requires |ws| > 0
    ensures Join([w] + ws) == w + " " + Join(ws)
  {
    assert ([w] + ws)[1..] == ws;
  }

  lemma Regroup(a: string, b: string, c: string, d: string)
    ensures a + (b + (c + d)) == a + b + c + d
  {
  }

  /** Collapsing whitespace gives the single-space join of the words of `s`,
      with one ' ' in front when `s` starts with whitespace and one behind when
      it ends with whitespace. */
  lemma {:induction false} CollapseShape(s: string)
    requires Words(s) != []
    ensures s != [] && Collapse(s) == Lead(s) + (Join(Words(s)) + Trail(s))
    decreases |s|, 1
  {
    if IsSpace(s[0]) {
      CollapseShapeAtSpace(s);
    } else {
      CollapseShapeAtWord(s);
    }
  }

  lemma {:induction false} CollapseShapeAtSpace(s: string)
    requires Words(s) != [] && s != [] && IsSpace(s[0])
    ensures Collapse(s) == " " + (Join(Words(s)) + Trail(s))
    decreases |s|, 0
  {
    SpaceStep(s);
    CollapseShape(DropSpaces(s[1..]));
  }

  /** What one step of the collapse over a leading whitespace run preserves. */
  lemma {:induction false} SpaceStep(s: string)
    requires Words(s) != [] && s != [] && IsSpace(s[0])
    ensures Words(DropSpaces(s[1..])) == Words(s)
    ensures DropSpaces(s[1..]) != [] && Lead(DropSpaces(s[1..])) == ""
    ensures Trail(DropSpaces(s[1..])) == Trail(s)
  {
    var t := s[1..];
    var d := DropSpaces(t);
    assert Words(d) == Words(s) by {
      assert Words(s) == Words(t);
      WordsDropSpaces(t);
    }
    assert d != [];
    assert d[|d| - 1] == s[|s| - 1] by {
      DropSpacesKeepsLast(t);
      assert t[|t| - 1] == s[|s| - 1];
    }
  }

  lemma {:induction false} CollapseShapeAtWord(s: string)
    requires Words(s) != [] && s != [] && !IsSpace(s[0])
    ensures Collapse(s) == Join(Words(s)) + Trail(s)
    decreases |s|, 0
  {
    var k := WordLen(s);
    var w := s[..k];
    var rest := s[k..];
    assert Collapse(s) == w + Collapse(rest);
    assert Words(s) == [w] + Words(rest);
    if rest == [] {
      assert s == w;
      assert [w] + Words(rest) == [w];
    } else {
      assert Trail(rest) == Trail(s) by {
        assert s[|s| - 1] == rest[|rest| - 1];
      }
      if Words(rest) == [] {
        assert Collapse(rest) == " " && Trail(s) == " " by {
          WordsEmptyIffBlank(rest);
          CollapseBlank(rest);
        }
        assert [w] + Words(rest) == [w];
      } else {
        assert Collapse(rest) == " " + (Join(Words(rest)) + Trail(s)) by {
          CollapseShapeAtSpace(rest);
        }
        JoinCons(w, Words(rest));
        Regroup(w, " ", Join(Words(rest)), Trail(s));
      }
    }
  }

  /** The normalisation equals the single-space join of Python's `s.split()`
      word list: no word is lost, added, split, merged or reordered. */
  lemma NormalizeIsJoinedWords(s: string)
    ensures Normalize(s) == Join(Words(s))
    ensures Normalized(Normalize(s))
    ensures Normalize(s) == "" <==> Blank(s)
  {
    WordsEmptyIffBlank(s);
    if Words(s) == [] {
      NormalizeBlank(s);
    } else {
      NormalizeWordy(s);
    }
  }

  lemma NormalizeBlank(s: string)
    requires Words(s) == [] && Blank(s)
    ensures Normalize(s) == "" && Join(Words(s)) == ""
  {
    if s != [] {
      CollapseBlank(s);
      assert Strip(" ") == "" by {
        assert DropSpaces(" ") == DropSpaces(" "[1..]);
      }
    }
  }

  lemma NormalizeWordy(s: string)
    requires Words(s) != []
    ensures Normalize(s) == Join(Words(s))
    ensures Normalized(Normalize(s)) && Normalize(s) != ""
  {
    var j := Join(Words(s));
    WordsAreWords(s);
    JoinWordsNormalized(Words(s));
    CollapseShape(s);
    StripOfTrimmed(j);
    StripIgnoresPadding(Lead(s), j, Trail(s));
  }

  // ---------------------------------------------------------------------------
  // Lemmas: words under padding and joining

  lemma LowerCharIsDot(c: char)
    ensures LowerChar(c) == '.' <==> c == '.'
  {
  }

  lemma {:induction false} WordsAfterBlank(p: string, s: string)
    requires Blank(p)
    ensures Words(p + s) == Words(s)
    decreases |p|
  {
    if p != [] {
      assert (p + s)[1..] == p[1..] + s;
      WordsAfterBlank(p[1..], s);
    } else {
      assert p + s == s;
    }
  }

  lemma {:induction false} WordsBeforeBlank(s: string, q: string)
    requires Blank(q)
    ensures Words(s + q) == Words(s)
    decreases |s|
  {
    if s == [] {
      assert s + q == q;
      WordsEmptyIffBlank(q);
    } else if IsSpace(s[0]) {
      assert (s + q)[1..] == s[1..] + q;
      WordsBeforeBlank(s[1..], q);
    } else {
      var k := WordLen(s);
      WordLenBeforeBlank(s, q);
      assert (s + q)[..k] == s[..k];
      assert (s + q)[k..] == s[k..] + q;
      WordsBeforeBlank(s[k..], q);
    }
  }

  lemma {:induction false} WordLenBeforeBlank(s: string, q: string)
    requires Blank(q)
    ensures WordLen(s + q) == WordLen(s)
    decreases |s|
  {
    if s == [] {
      assert s + q == q;
    } else if !IsSpace(s[0]) {
      assert (s + q)[1..] == s[1..] + q;
      WordLenBeforeBlank(s[1..], q);
    }
  }

  /** A word followed by a separator run is measured exactly. */
  lemma {:induction false} WordLenOfWord(w: string, rest: string)
    requires (forall i | 0 <= i < |w| :: !IsSpace(w[i]))
    requires rest == [] || IsSpace(rest[0])
    ensures WordLen(w + rest) == |w|
    decreases |w|
  {
    if w == [] {
      assert w + rest == rest;
    } else {
      assert (w + rest)[1..] == w[1..] + rest;
      WordLenOfWord(w[1..], rest);
    }
  }

  /** Words of `a + " " + b` are the words of `a` followed by those of `b`. */
  lemma {:induction false} WordsOfSpaced(a: string, b: string)
    ensures Words(a + " " + b) == Words(a) + Words(b)
    decreases |a|
  {
    var s := a + " " + b;
    if a == [] {
      assert s == " " + b;
      assert s[1..] == b;
    } else if IsSpace(a[0]) {
      assert s[1..] == a[1..] + " " + b;
      WordsOfSpaced(a[1..], b);
    } else {
      var k := WordLen(a);
      var rest := a[k..];
      WordLenOfWord(a[..k], rest + " " + b);
      assert a[..k] + (rest + " " + b) == s;
      assert s[..k] == a[..k];
      assert s[k..] == rest + " " + b;
      WordsOfSpaced(rest, b);
      assert Words(a) == [a[..k]] + Words(rest);
      assert Words(s) == [a[..k]] + Words(s[k..]);
    }
  }

  lemma {:induction false} WordsOfStrip(s: string)
    ensures Words(Strip(s)) == Words(s)
  {
    var d := DropSpaces(s);
    assert Words(d) == Words(s) by {
      DropSpacesSuffix(s);
      var p := s[..|s| - |d|];
      DropSpacesPrefixBlank(s);
      assert s == p + d;
      WordsAfterBlank(p, d);
    }
    var r := StripRight(d);
    assert Words(r) == Words(d) by {
      StripRightPrefix(d);
      var q := d[|r|..];
      assert d == r + q;
      WordsBeforeBlank(r, q);
    }
  }

  lemma {:induction false} DropSpacesPrefixBlank(s: string)
    ensures Blank(s[..|s| - |DropSpaces(s)|])
    decreases |s|
  {
    if s != [] && IsSpace(s[0]) {
      DropSpacesPrefixBlank(s[1..]);
      var k := |s| - |DropSpaces(s)|;
      forall i | 0 <= i < k
        ensures IsSpace(s[..k][i])
      {
        if i > 0 {
          assert s[..k][i] == s[1..][..k - 1][i - 1];
        }
      }
    }
  }

  lemma {:induction false} StripRightPrefix(s: string)
    ensures StripRight(s) == s[..|StripRight(s)|]
    ensures Blank(s[|StripRight(s)|..])
    decreases |s|
  {
    if s != [] && IsSpace(s[|s| - 1]) {
      var n := |s| - 1;
      StripRightPrefix(s[..n]);
      var k := |StripRight(s)|;
      assert s[..n][..k] == s[..k];
      forall i | k <= i < |s|
        ensures IsSpace(s[i])
      {
        if i < n {
          assert s[i] == s[..n][k..][i - k];
        }
      }
    }
  }

  lemma StripStartsSolid(s: string)
    ensures Strip(s) != "" ==> !IsSpace(Strip(s)[0])
  {
    var d := DropSpaces(s);
    StripRightPrefix(d);
    if Strip(s) != "" {
      assert Strip(s)[0] == d[0];
    }
  }

  lemma JoinFirst(ws: seq<string>)
    requires ws != [] && ws[0] != ""
    ensures Join(ws) != "" && Join(ws)[0] == ws[0][0]
  {
    if |ws| > 1 {
      assert Join(ws) == ws[0] + " " + Join(ws[1..]);
    }
  }
}

=== FILE: Wrappers.dfy ===
/** Failure-carrying wrappers: `Option` for Python's `None`-or-value results and
    `Result` for operations that may raise. */
module Wrappers {

  /** A value that may be absent (Python's `None`). */
  datatype Option<+T> = None | Some(value: T)

  /** The outcome of an operation that either returns a value or raises an error. */
  datatype Result<+T, +E> = Ok(value: T) | Err(error: E)
}
